=== FILE: README.md ===
# Chameleon honeypot: a Dafny model of its core

Chameleon is a self-evolving honeypot. An attacker console posts commands to
`POST /api/honeypot`. The route logs each command and runs it through the active
firewall rules, which are regular expressions kept in a key-value store.
- A command that a rule blocks gets a fixed "firewall blocked" answer. It also leaves a
  `firewall:logs` entry and a forensic row.
- Any other command is answered by a generator (Gemini, or OpenAI as the fallback).
  The command is filed in the `hacker_activity` table under a severity tier. Evidence is
  captured for every tier except Low, and the evolution engine runs. That engine asks the
  generator for a rule plus a replacement of the protected artifact, and writes the
  replacement back.

`GET /api/rules` and `GET /api/logs` read the resulting state back. The admin dashboard
and the attacker console turn that state into badges, charts and terminal lines.

The model holds all external state in one immutable `Store.State` value:
- the `attack:logs`, `firewall:rules`, `firewall:logs` and `patch:history` lists;
- the response cache;
- the forensic table;
- the protected artifact.

Each operation is a pure function from a state and its inputs to a new state and a reply.
Collaborators whose behaviour lives outside the repository are function-valued
parameters. These are the regular-expression engine, the generators, `JSON.parse`, the
evidence capture and the date parser. The honeypot route's outcome lists, in order, the
generator request, the evidence request and the evolution run it makes. Regex tests,
parsing, date parsing and the evolution engine's own generator, parse and write calls are
inputs to the model and are not recorded as calls.

Modules follow the source:
- `Firewall`: rule parsing and the first-match loop.
- `Triage`: the severity tiers.
- `Honeypot`: the request pipeline.
- `Defense`: the evolution engine.
- `RulesRoute` and `LogsRoute`: the two read endpoints.
- `AdminPanel`, `Velocity` and `TopCommands`: the dashboard's derivations.
- `Console`: the attacker console.
- Shared foundations: `Text` (the JavaScript string operations used), `Sorting` (a
  stable sort, as `Array.prototype.sort` must be) and `Store` (the records).

## Model

| member | source | states |
|---|---|---|
| Firewall.ScanSplit | chameleon-honeypot/src/app/api/honeypot/route.ts:89-96 | the lazy `(.*?)` search for the closing slash returns a position inside the rule, tried left to right |
| Firewall.ScanSplitFinds | chameleon-honeypot/src/app/api/honeypot/route.ts:89-96 | the scan returns a split exactly when the reference description of a match of `^\/(.*?)\/([a-z]*)$` allows one; a `None` means no later position splits |
| Firewall.SplitIsUnique | chameleon-honeypot/src/app/api/honeypot/route.ts:89-90 | a rule string splits at no more than one slash, because later slashes are not flag letters |
| Firewall.SplitIsLastSlash | chameleon-honeypot/src/app/api/honeypot/route.ts:89-90 | the slash a rule splits at is its last one |
| Firewall.ParseRuleCharacterised | chameleon-honeypot/src/app/api/honeypot/route.ts:89-96 | a splittable rule compiles to the text between its slashes, with the suffix as flags (`i` when the suffix is empty); any other rule compiles whole with flags `i` |
| Firewall.Evaluate | chameleon-honeypot/src/app/api/honeypot/route.ts:81-138 | the command is allowed iff no rule hits; when blocked, the reported rule is the first in store order that hits, and every earlier one misses (a compile error counts as a miss) |
| Firewall.DroppingMissRuleKeepsVerdict | chameleon-honeypot/src/app/api/honeypot/route.ts:118-136 | deleting a rule that does not hit, such as an invalid one, changes neither the verdict nor the blocking rule string |
| Firewall.PushedRuleBlocks | chameleon-honeypot/src/app/api/honeypot/route.ts:81-133 | a rule pushed to the head of the list that matches a command blocks it, whatever rules follow |
| Triage.Classify | chameleon-honeypot/src/app/api/honeypot/route.ts:256-261 | tier Critical, High, Medium or Low iff the lower-cased command contains a word of that tier's list and of no higher tier's list (both directions for each tier) |
| Triage.ClassifyIgnoresCase | chameleon-honeypot/src/app/api/honeypot/route.ts:257 | letter case never changes the tier |
| Triage.ClassifyMonotone | chameleon-honeypot/src/app/api/honeypot/route.ts:258-260 | adding text around a command never lowers its tier |
| Triage.ClassifyCriticalExample | chameleon-honeypot/src/app/api/honeypot/route.ts:258 | "DROP TABLE users" is Critical |
| Triage.ClassifyHighExample | chameleon-honeypot/src/app/api/honeypot/route.ts:259 | "UNION SELECT * FROM users" is High |
| Triage.ClassifyMediumExample | chameleon-honeypot/src/app/api/honeypot/route.ts:260 | a `<script>alert(1)</script>` payload is Medium |
| Triage.ClassifyLowExample | chameleon-honeypot/src/app/api/honeypot/route.ts:256 | "hello" is Low |
| Triage.ClassifySubstringQuirk | chameleon-honeypot/src/app/api/honeypot/route.ts:260 | keywords match as substrings, so "false" is Medium through "ls" |
| Honeypot.ChooseProvider | chameleon-honeypot/src/app/api/honeypot/route.ts:201-221 | Gemini iff its key is set; OpenAI iff only its key is set; no provider iff neither key is set |
| Honeypot.Respond | chameleon-honeypot/src/app/api/honeypot/route.ts:200-221 | with the Gemini key set, Gemini's answer or its error; with only the OpenAI key set, OpenAI's answer; with neither, the no-provider error |
| Honeypot.Persist | chameleon-honeypot/src/app/api/honeypot/route.ts:252-303 | only the forensic table changes; a working table gains exactly one row with the request's date, type, tier, input, response and time; evidence is asked for iff the table works and the tier is not Low; when the table works and the tier is not Low, the new row's evidence path is the one the capture returned (a returned empty path leaves it empty); a Low row or a failed capture leaves it empty |
| Honeypot.HandleRequest | chameleon-honeypot/src/app/api/honeypot/route.ts:63-339 | a body that does not parse gives status 500 with "System Error: " and the parser's message, with nothing written and no collaborator asked; status 400 iff the body parses but has no command, and then nothing changes and no collaborator is asked; the active rules never change; an accepted command is pushed first onto the attack log with the client address |
| Honeypot.BlockedRequest | chameleon-honeypot/src/app/api/honeypot/route.ts:118-163 | a blocked command gets status 200 and the fixed blocked output; no collaborator is asked; the state gains exactly the attack-log entry, one firewall-log entry naming the first hitting rule, and the blocked row when the table works |
| Honeypot.AllowedRequest | chameleon-honeypot/src/app/api/honeypot/route.ts:165-337 | the generator is asked iff a provider is configured; with none, or when Gemini throws, status 500 with "System Error: " and the error message, after the attack-log push alone; evolution runs iff the generator answered. An answered command gets status 200 with the answer and the answer is cached under the command. The firewall log is left alone. When the table works, exactly one trapped row is filed with the request's date, the command's tier, the command, the answer and the engagement time; otherwise the table is unchanged. Either the artifact and the patch history stay as they were, or the history gains one record whose trigger is the command and whose patch is the new artifact |
| Honeypot.EvidenceGating | chameleon-honeypot/src/app/api/honeypot/route.ts:264-303 | evidence is requested iff the command was accepted, allowed and answered, the table works, and its tier is not Low |
| Honeypot.ServeEvidence | chameleon-honeypot/src/app/api/honeypot/route.ts:252-303 | on the allowed path, evidence is requested iff the generator answered, the table works and the tier is not Low |
| Honeypot.ReplyIgnoresSideEffects | chameleon-honeypot/src/app/api/honeypot/route.ts:167-330 | the reply is independent of the cache, the table, the artifact, the patch history and whether table writes, evidence capture or evolution succeed |
| Honeypot.PushedRuleBlocksNextAttempt | chameleon-honeypot/src/app/api/honeypot/route.ts:81-163 | once a matching rule is pushed, the same request is blocked and its firewall-log entry names that rule |
| Defense.StripFencesUnwraps | chameleon-honeypot/src/lib/defense.ts:90 | a body wrapped in a json fence comes out as the trimmed body |
| Defense.StripFencesKeepsIndentedFence | chameleon-honeypot/src/lib/defense.ts:90 | fences are stripped only at the very start and end, so a fence after leading white space survives and the text is only trimmed |
| Defense.StripFencesKeepsTrailingFence | chameleon-honeypot/src/lib/defense.ts:90 | likewise a fence followed by trailing white space survives: text that does not start with a fence and ends in white space is only trimmed |
| Defense.ApplyFix | chameleon-honeypot/src/lib/defense.ts:101-134 | always a success reporting the command and the generated rule; the patch is applied iff it is non-empty and the write succeeds; it then replaces the artifact and pushes one history record, and otherwise nothing changes |
| Defense.Evolve | chameleon-honeypot/src/lib/defense.ts:43-140 | rules, firewall logs, table and cache never change; the attack log is kept or loses its head; the artifact and history change together, by one record naming the analysed command, exactly when an applied patch is reported |
| Defense.EvolveSourcing | chameleon-honeypot/src/lib/defense.ts:47-65 | a truthy supplied log is analysed and the attack log kept; otherwise the head is popped and a success analyses the command it carried |
| Defense.EvolveWithoutAttack | chameleon-honeypot/src/lib/defense.ts:47-62 | with no log to analyse, the run reports "No new attacks to analyze." and changes no artifact, history or rule |
| Defense.EvolveUnparsableAnswer | chameleon-honeypot/src/lib/defense.ts:92-99 | an answer that does not parse yields a success reporting the fallback rule `/.*/`, and nothing is written |
| Defense.EvolveAppliesPatch | chameleon-honeypot/src/lib/defense.ts:108-134 | a non-empty patch replaces the artifact and is recorded once with the command as trigger iff the write succeeds; a failed write leaves the state unchanged and still reports success |
| Defense.EvolveFailures | chameleon-honeypot/src/lib/defense.ts:64-90 | an unparsable log, a missing artifact or a generator error gives "Failed to evolve", leaving only the consumed log behind |
| RulesRoute.NormalisePatch | chameleon-honeypot/src/app/api/rules/route.ts:10-12 | a parsed entry shows its record; unparsable text shows as the placeholder with trigger "Unknown" carrying the raw text |
| RulesRoute.NormalisePatches | chameleon-honeypot/src/app/api/rules/route.ts:10-12 | the history is normalised element by element, keeping length and order |
| RulesRoute.NormaliseRoundTrip | chameleon-honeypot/src/app/api/rules/route.ts:10-12 | every stored entry can be recovered from its view, so nothing is lost |
| RulesRoute.CheckArtifact | chameleon-honeypot/src/app/api/rules/route.ts:15-31 | patched iff the artifact exists, can be read and contains either parameterised-query marker; when patched, the critical line is the content, and otherwise the status is the unpatched default |
| RulesRoute.CriticalLineIffPatched | chameleon-honeypot/src/app/api/rules/route.ts:17-30 | the critical line is non-empty iff the artifact is reported patched |
| RulesRoute.GetRules | chameleon-honeypot/src/app/api/rules/route.ts:4-41 | a store failure empties the whole reply; otherwise the reply holds the rules as stored, one recoverable view per history entry, and the artifact check |
| RulesRoute.AppliedPatchIsReported | chameleon-honeypot/src/lib/defense.ts:108-126 | after an applied parameterised patch, the rules endpoint reports it patched, lists it first with the analysed command as trigger, and shows the rules unchanged |
| LogsRoute.NewestFirst | chameleon-honeypot/src/app/api/logs/route.ts:8-9 | at most 500 rows, the newest first |
| LogsRoute.FormatLog | chameleon-honeypot/src/app/api/logs/route.ts:12-23 | command, rule and placeholder address come from the row; the time is the parsed date when it is valid and non-zero, and the request's clock when the date is invalid or zero |
| LogsRoute.CountBlocked | chameleon-honeypot/src/app/api/logs/route.ts:26 | no more blocked rows than rows |
| LogsRoute.BlockedLogs | chameleon-honeypot/src/app/api/logs/route.ts:26 | one entry per blocked row |
| LogsRoute.TrappedLogs | chameleon-honeypot/src/app/api/logs/route.ts:25 | one entry per row that is not blocked |
| LogsRoute.PartitionPlacesRow | chameleon-honeypot/src/app/api/logs/route.ts:25-26 | each row lands in exactly the list its type selects, after the earlier rows of that list (a stable partition) |
| LogsRoute.BlockedEntriesComeFromBlockedRows | chameleon-honeypot/src/app/api/logs/route.ts:26 | every blocked entry is the formatted form of some blocked row |
| LogsRoute.TrappedEntriesComeFromOtherRows | chameleon-honeypot/src/app/api/logs/route.ts:25 | every trapped entry is the formatted form of some row that is not blocked |
| LogsRoute.GetLogs | chameleon-honeypot/src/app/api/logs/route.ts:5-36 | a failed query gives two empty lists; otherwise the lists together hold min(rows, 500) entries, and they are the trapped and the blocked lists of the newest rows |
| LogsRoute.GetLogsIsStablePartition | chameleon-honeypot/src/app/api/logs/route.ts:8-26 | the route's lists are a stable partition of the newest rows: every entry comes from a row of its kind, every row is in the list its type selects, and newer rows come first in each list |
| LogsRoute.NewestRowLeadsItsList | chameleon-honeypot/src/app/api/logs/route.ts:8-26 | the newest row heads the list its type selects |
| Velocity.BucketIndexIff | chameleon-honeypot/src/app/admin/page.tsx:131-134 | `29 - floor(age / 10000)` is bucket `i` iff the age lies within that bucket's ten seconds |
| Velocity.Place | chameleon-honeypot/src/app/admin/page.tsx:134-140 | an in-range index bumps exactly that counter; an out-of-range index changes nothing |
| Velocity.Counts | chameleon-honeypot/src/app/admin/page.tsx:131-141 | thirty counters, whatever the logs |
| Velocity.CountsAreWindows | chameleon-honeypot/src/app/admin/page.tsx:131-141 | each counter equals the number of logs whose age falls in its window |
| Velocity.CountsSumToRecent | chameleon-honeypot/src/app/admin/page.tsx:131-141 | the counters add up to the logs at most five minutes old and not in the future, so never more than there are logs |
| Velocity.VelocityData | chameleon-honeypot/src/app/admin/page.tsx:117-144 | thirty buckets, ten seconds apart, the last at the request time |
| Velocity.VelocityCounts | chameleon-honeypot/src/app/admin/page.tsx:117-144 | each bucket shows the trapped and the blocked logs of its window |
| AdminPanel.DungeonRank | chameleon-honeypot/src/app/admin/page.tsx:112 | S-RANK iff more than 5 rules; A-RANK iff 3 to 5; B-RANK iff at most 2 |
| AdminPanel.DungeonRankMonotone | chameleon-honeypot/src/app/admin/page.tsx:112 | more rules never lower the badge |
| AdminPanel.Distribution | chameleon-honeypot/src/app/admin/page.tsx:149-161 | the single "No Threats" slice iff both lists are empty; otherwise the non-empty lists' slices, in order, adding up to the number of logs |
| AdminPanel.Filtered | chameleon-honeypot/src/app/admin/page.tsx:160 | keeps exactly the slices with a positive value, with the same total; a single slice is kept iff its value is positive |
| AdminPanel.FilteredDistributes | chameleon-honeypot/src/app/admin/page.tsx:160 | filtering a concatenation filters each part in place, so with the single-slice case the result is the order-preserving selection |
| AdminPanel.ChatReply | chameleon-honeypot/src/app/admin/page.tsx:92-95 | the last matching check decides: "hello" beats "attack", which beats "status"; the default reply iff none occurs |
| AdminPanel.SendMessage | chameleon-honeypot/src/app/admin/page.tsx:83-99 | white-space-only input changes nothing; other input appends the message as typed, then its reply |
| AdminPanel.HelloAlwaysWins | chameleon-honeypot/src/app/admin/page.tsx:95 | any message containing "hello" gets the greeting |
| TopCommands.CommandKey | chameleon-honeypot/src/app/admin/page.tsx:263 | the label equals the command iff the command has at most 15 characters; otherwise it is the first 12 plus "..." |
| TopCommands.CommandKeyIdempotent | chameleon-honeypot/src/app/admin/page.tsx:263 | shortening a label changes nothing |
| TopCommands.LongCommandsShareKey | chameleon-honeypot/src/app/admin/page.tsx:263 | long commands agreeing on 12 characters share one bar |
| TopCommands.Sightings | chameleon-honeypot/src/app/admin/page.tsx:262-273 | trapped logs are visited first, then blocked logs, each under its label |
| TopCommands.Bump | chameleon-honeypot/src/app/admin/page.tsx:264-265 | an unseen label gets a new last entry; a seen one gets its own side's count raised, and nothing else changes |
| TopCommands.TallyCounts | chameleon-honeypot/src/app/admin/page.tsx:258-273 | one entry per label, in first-sighting order, holding that label's true trapped and blocked counts |
| TopCommands.EntriesOrder | chameleon-honeypot/src/app/admin/page.tsx:275 | `Object.entries` yields a permutation of the counts |
| TopCommands.EntriesOrderPutsIndicesFirst | chameleon-honeypot/src/app/admin/page.tsx:275 | array-index names come first, in ascending numeric order |
| TopCommands.Ranked | chameleon-honeypot/src/app/admin/page.tsx:275-282 | the entries sorted by descending total, as a permutation of the counts |
| TopCommands.Cut | chameleon-honeypot/src/app/admin/page.tsx:283 | the first min(n, 7) entries, still sorted |
| TopCommands.TopCommands | chameleon-honeypot/src/app/admin/page.tsx:258-284 | at most seven bars, by descending total |
| TopCommands.TopIsPrefixOfRanked | chameleon-honeypot/src/app/admin/page.tsx:275-283 | the bars are the first seven ranked entries, and the ranking has one entry per label |
| TopCommands.TopCommandsAreCounted | chameleon-honeypot/src/app/admin/page.tsx:258-284 | each bar is a label with its true counts; there are seven bars, or one per label when fewer |
| TopCommands.TopCommandsAreTheLargest | chameleon-honeypot/src/app/admin/page.tsx:281-283 | no label left off the chart has a larger total than a bar shown |
| TopCommands.TopCommandsTiesKeepEntriesOrder | chameleon-honeypot/src/app/admin/page.tsx:275-282 | bars with equal totals stay in `Object.entries` order |
| Sorting.Insert | chameleon-honeypot/src/app/admin/page.tsx:282 | inserting into a sorted list keeps it sorted, adding exactly the element |
| Sorting.SortDesc | chameleon-honeypot/src/app/admin/page.tsx:282 | a sorted permutation of the input |
| Sorting.InsertKeepsGroups | chameleon-honeypot/src/app/admin/page.tsx:282 | insertion puts the element in front of its own key's group and leaves every other group alone |
| Sorting.SortIsStable | chameleon-honeypot/src/app/admin/page.tsx:282 | elements with equal keys keep their relative order |
| Console.PatchLabel | chameleon-honeypot/src/app/page.tsx:46 | the trigger when non-empty, otherwise "Unknown Attack"; never empty |
| Console.Combine | chameleon-honeypot/src/app/page.tsx:37-47 | every rule, then every patch label, each in the order received; a missing field contributes nothing |
| Console.DefenceListMirrorsStore | chameleon-honeypot/src/app/page.tsx:37-47 | one item per active rule and per history entry; "Unknown Attack" marks exactly the parsed records whose trigger is empty or is that text |
| Console.BuildRequest | chameleon-honeypot/src/app/page.tsx:68-85 | the honeypot target posts only the command to `/api/honeypot`; the prod target posts the command and the password to `/api/prod`, with exactly one `q` and one `p` query parameter iff each is non-empty, `q` first |
| Console.Shown | chameleon-honeypot/src/app/page.tsx:96 | the output when non-empty, otherwise "Shell Access Granted" |
| Console.OutcomeLine | chameleon-honeypot/src/app/page.tsx:87-105 | 403 gives the refused line; an unreachable target or non-JSON body gives the fatal line; any other status gives the ACK line with the shown output and the status printed as a numeral without leading zeros |
| Console.AttackLines | chameleon-honeypot/src/app/page.tsx:63-107 | an attack adds two lines: first the injecting line naming the target, then the outcome line of its answer |
| Console.EmptyCommandShowsShellGranted | chameleon-honeypot/src/app/page.tsx:95-96 | an empty command is answered 400 without `output`, and the terminal still shows "+ ACK [400]: Shell Access Granted" |
| Console.BlockedCommandShowsBlockedOutput | chameleon-honeypot/src/app/page.tsx:87-96 | a blocked command shows "+ ACK [200]: " with the blocked output, never the refused line |
| Console.Repeat | chameleon-honeypot/src/app/page.tsx:271 | `n` copies of a unit have `n` times its length, start with the unit when `n > 0`, and every character equals the one a unit-length earlier, so every copy is the unit |
| Console.PasswordDisplay | chameleon-honeypot/src/app/page.tsx:271 | an empty password shows the placeholder; a visible one shows itself; a hidden one shows one bullet per character |
| Console.MaskAsWrittenIsThreeTimesLonger | chameleon-honeypot/src/app/page.tsx:271 | as written, a hidden password shows three characters per character typed, starting with "â€¢", and differs from the intended display |
| Console.MaskFixChangesOnlyHiddenDisplay | chameleon-honeypot/src/app/page.tsx:271 | the corrected field agrees with the original except on a hidden non-empty password |
| Text.Lower | chameleon-honeypot/src/app/api/honeypot/route.ts:257 | lower-casing keeps length and lower-cases each character |
| Text.Trim | chameleon-honeypot/src/app/admin/page.tsx:84 | the result neither starts nor ends with white space, and is reached from the input by dropping white space only |
| Text.TrimEmptyIffAllSpace | chameleon-honeypot/src/app/admin/page.tsx:84 | trimming gives the empty string iff the input is all white space |
| Text.DecimalRoundTrip | chameleon-honeypot/src/app/page.tsx:96 | reading back the digits of the printed status gives the status |
| Text.DecimalUnique | chameleon-honeypot/src/app/page.tsx:96 | a numeral without leading zeros is the decimal rendering of its value, so the status digits of an ACK line are exactly the printed decimal |

Some definitions carry no contract of their own and are characterised by the lemmas
listed above:
- `Firewall.ParseRule` by `Firewall.ParseRuleCharacterised`.
- `Defense.StripFences` by `Defense.StripFencesUnwraps`, `Defense.StripFencesKeepsIndentedFence` and `Defense.StripFencesKeepsTrailingFence`.
- `Defense.SourceAttack` by `Defense.EvolveSourcing` and `Defense.EvolveWithoutAttack`.
- `Defense.ReadFix` by `Defense.EvolveUnparsableAnswer` and `Defense.EvolveAppliesPatch`.
- `Honeypot.Serve` by `Honeypot.AllowedRequest`, `Honeypot.EvidenceGating` and `Honeypot.ReplyIgnoresSideEffects`.
- `TopCommands.Tally` by `TopCommands.TallyCounts`.
- `Console.PasswordDisplayAsWritten` by `Console.MaskAsWrittenIsThreeTimesLonger` and `Console.MaskFixChangesOnlyHiddenDisplay`.

## Left out

- Regular-expression semantics. Compiling and testing a rule is an uninterpreted engine, so the model does not say which commands a given pattern matches. Only the splitting of the rule string is modelled.
- The Gemini and OpenAI calls, the evidence capture and `JSON.parse`/`JSON.stringify`. Their answers are parameters. A stored list element is either a record the pipeline wrote or raw text that does not parse.
- The Python runner (`route.ts:234-248`) and the `USE_MOCK` branches (`route.ts:177`, `defense.ts:56-58`). The model takes `USE_MOCK` to be off. The runner's output never reaches the reply.
- Key-value store failures are not modelled in the honeypot route or the evolution engine: the store is assumed to work there. In the read endpoints a failure is a parameter. Three failure paths are therefore outside the model:
  - A failed attack-log push, rule read or cache write (`route.ts:73-81`, `route.ts:224`) reaches the outer status-500 handler.
  - A failed `firewall:logs` push (`route.ts:126`) is caught by the per-rule handler before the `break`. The loop then goes on, later hitting rules try to push their own entries, and the reply is still the blocked one.
  - A failed `patch:history` push (`defense.ts:118`) comes after the artifact write. It leaves the artifact replaced, reports the patch applied, and adds no history record. `Defense.Evolve` states that the artifact and the history change together only under a working store.
- Non-string commands are not modelled: the body's command is a string or absent. The source accepts any truthy JSON value. It is logged and tested against the rules. When no rule blocks it, what happens depends on its kind:
  - A number such as `5` or a plain object cannot be turned into the cache key (`route.ts:167`), so the reply is status 500.
  - An array of strings is a valid input to `Buffer.from`, and Gemini's `sendMessage` accepts it. When the generator answers, the array is cached and answered with status 200. `command.toLowerCase()` (`route.ts:258`) then throws inside the forensic step's own handler, so no forensic row is written. The evolution step still runs.
  - A falsy non-string, such as `0` or `false`, gets status 400 like an empty command.
- AdminPanel.SendMessage: appends the message and its reply in one step. The source appends the reply from a timer 600 ms later (`admin/page.tsx:91-98`). Two messages sent within that time therefore show as message, message, reply, reply. The model always shows each reply right after its message.
- Every `Date.now()` of a request is one clock reading `now`, and the formatted date is a parameter. The engagement time is kept in milliseconds; the source stores it divided by 1000 as a float.
- The cache key is the command itself rather than its base64 form (`route.ts:167-169`). The key is never read, so only the entry written matters.
- `toLowerCase` is modelled on ASCII letters only. String length is the number of code points, where JavaScript counts UTF-16 units.
- Bucket labels of the velocity chart (`toLocaleTimeString`) are left out. A bucket carries its time in milliseconds.
- URL encoding of the query parameters, toasts, polling, rendering and styling of both pages are left out.
- The stats route that supplies the rule count of the rank badge is not part of this model. `AdminPanel.DungeonRank` takes the count as input.
- TopCommands.TallyCounts: treats the counts object as a map with no inherited keys. A label equal to an inherited property name of a plain object (`constructor`, `toString`, `__proto__`) finds that property instead of an own entry, and is not counted as the source would do.
- TopCommands.TopCommandsTiesKeepEntriesOrder: states tie order only for a chart that shows every label. With more than seven labels the ties of the shown prefix follow from `Sorting.SortIsStable` but are not restated.
- TopCommands.EntriesOrder: array-index names are ordered by their numeric value. Among the other names the order is first sighting, which is `Object.entries` order for string keys.

## Findings

| source | as written | input that shows it | evidently intended | confidence | as-written member | corrected member |
|---|---|---|---|---|---|---|
| chameleon-honeypot/src/app/page.tsx:271 | the mask unit is the three characters "â€¢" (UTF-8 of a bullet decoded as Windows-1252) | any non-empty password while hidden, e.g. "abc" shows 9 characters | one bullet "•" (U+2022) per character | not executed | Console.MaskAsWrittenIsThreeTimesLonger | Console.PasswordDisplay |

=== FILE: admin_panel.dfy ===
/** The small derivations of the admin dashboard: the rank badge, the
    threat-distribution slices and the canned reply of the command chat. */
module AdminPanel {
  import opened Text

  const SRank: string := "S-RANK"
  const ARank: string := "A-RANK"
  const BRank: string := "B-RANK"

  /** Line 112: the badge for a number of active rules. */
  function DungeonRank(rules: int): (r: string)
    ensures r == SRank <==> rules > 5
    ensures r == ARank <==> 2 < rules <= 5
    ensures r == BRank <==> rules <= 2
  {
    if rules > 5 then SRank else if rules > 2 then ARank else BRank
  }

  /** The badge's standing: B below A below S. */
  function RankLevel(r: string): nat {
    if r == SRank then 2 else if r == ARank then 1 else 0
  }

  /** More rules never lower the badge. */
  lemma DungeonRankMonotone(a: int, b: int)
    requires a <= b
    ensures RankLevel(DungeonRank(a)) <= RankLevel(DungeonRank(b))
  {
  }

  /** One pie slice. */
  datatype Slice = Slice(name: string, value: nat)

  const NoThreats: Slice := Slice("No Threats", 1)
  const TrappedName: string := "Trapped"
  const BlockedName: string := "Blocked"

  function SliceSum(d: seq<Slice>): nat {
    if |d| == 0 then 0 else d[0].value + SliceSum(d[1..])
  }

  /** Lines 149-161: the slices for the two list lengths. */
  function Distribution(trapped: nat, blocked: nat): (d: seq<Slice>)
    ensures d == [NoThreats] <==> trapped == 0 && blocked == 0
    ensures 1 <= |d| <= 2
    ensures forall i :: 0 <= i < |d| ==> d[i].value > 0
    ensures trapped + blocked > 0 ==> SliceSum(d) == trapped + blocked
    ensures Slice(TrappedName, trapped) in d <==> trapped > 0
    ensures Slice(BlockedName, blocked) in d <==> blocked > 0
    ensures |d| == 2 ==> d == [Slice(TrappedName, trapped), Slice(BlockedName, blocked)]
  {
    if trapped == 0 && blocked == 0 then [NoThreats]
    else
      var all := [Slice(TrappedName, trapped), Slice(BlockedName, blocked)];
      assert all[1..] == [Slice(BlockedName, blocked)] && all[1..][1..] == [];
      assert SliceSum(all[1..][1..]) == 0;
      assert SliceSum(all[1..]) == blocked;
      assert SliceSum(all) == trapped + blocked;
      Filtered(all)
  }

  /** Line 160: keep the slices with a positive value. A one-slice list
      keeps or drops its slice; `FilteredDistributes` adds that a list is
      filtered piece by piece, so the kept slices stay in their order. */
  function Filtered(d: seq<Slice>): (r: seq<Slice>)
    ensures |r| <= |d|
    ensures forall s :: s in r <==> s in d && s.value > 0
    ensures SliceSum(r) == SliceSum(d)
    ensures |d| == 1 ==> r == (if d[0].value > 0 then d else [])
  {
    if |d| == 0 then []
    else
      var rest := Filtered(d[1..]);
      assert forall s :: s in d <==> s == d[0] || s in d[1..];
      if d[0].value > 0 then [d[0]] + rest else rest
  }

  /** Filtering a concatenation filters each part in place: together with
      the one-slice case this fixes the result as the order-preserving
      selection of the positive slices. */
  lemma {:induction false} FilteredDistributes(a: seq<Slice>, b: seq<Slice>)
    ensures Filtered(a + b) == Filtered(a) + Filtered(b)
  {
    if |a| > 0 {
      assert (a + b)[0] == a[0];
      assert (a + b)[1..] == a[1..] + b;
      FilteredDistributes(a[1..], b);
    } else {
      assert a + b == b;
    }
  }

  const DefaultReply: string := "I do not understand that command, My Liege."
  const StatusReply: string := "Systems operational. Gates are holding."
  const AttackReply: string := "Shadow Army is ready to deploy on your signal."
  const HelloReply: string := "Greetings, Monarch."

  /** Lines 91-94: each matching word overwrites the reply chosen so far, so
      the last of "status", "attack", "hello" that occurs decides. */
  function ChatReply(input: string): (r: string)
    ensures Contains(Lower(input), "hello") ==> r == HelloReply
    ensures !Contains(Lower(input), "hello") && Contains(Lower(input), "attack") ==> r == AttackReply
    ensures !Contains(Lower(input), "hello") && !Contains(Lower(input), "attack") && Contains(Lower(input), "status")
            ==> r == StatusReply
    ensures !Contains(Lower(input), "hello") && !Contains(Lower(input), "attack") && !Contains(Lower(input), "status")
            <==> r == DefaultReply
  {
    var lower := Lower(input);
    var r0 := DefaultReply;
    var r1 := if Contains(lower, "status") then StatusReply else r0;
    var r2 := if Contains(lower, "attack") then AttackReply else r1;
    if Contains(lower, "hello") then HelloReply else r2
  }

  datatype Role = User | Bot

  datatype ChatMessage = ChatMessage(role: Role, text: string)

  /** Lines 83-99: an input that is only white space is ignored; any other
      is appended as typed, followed by the reply. */
  function SendMessage(messages: seq<ChatMessage>, input: string): (m: seq<ChatMessage>)
    ensures AllSpace(input) ==> m == messages
    ensures !AllSpace(input) ==> m == messages + [ChatMessage(User, input), ChatMessage(Bot, ChatReply(input))]
  {
    TrimEmptyIffAllSpace(input);
    if Trim(input) == [] then messages
    else messages + [ChatMessage(User, input), ChatMessage(Bot, ChatReply(input))]
  }

  /** Mentioning "hello" anywhere in a message always gets the greeting,
      whatever else the message says. */
  lemma HelloAlwaysWins(a: string, b: string)
    ensures ChatReply(a + "hello" + b) == HelloReply
  {
    LowerOfConcat(a + "hello", b);
    LowerOfConcat(a, "hello");
    assert Lower("hello") == "hello";
    var lower := Lower(a) + "hello" + Lower(b);
    ContainsAt("hello", "hello", 0);
    ContainsInContext(Lower(a), "hello", Lower(b), "hello");
  }
}

=== FILE: console.dfy ===
/** The attacker console (`src/app/page.tsx`): the defence list built from
    the rules endpoint, the request an attack sends, the terminal line its
    answer produces, and the password field's display. Rendering, toasts and
    polling are left out. */
module Console {
  import opened Wrappers
  import opened Text
  import opened Store
  import RulesRoute
  import Firewall
  import Honeypot

  /** The rules endpoint's reply as the console reads it: a field that is
      absent is `None` (an array, even empty, is truthy). */
  datatype RulesData = RulesData(rules: Option<seq<string>>, patches: Option<seq<RulesRoute.PatchView>>)

  datatype DefenceItem = RuleItem(content: string) | PatchItem(content: string)

  const UnknownAttack: string := "Unknown Attack"

  /** A patch's trigger, or "Unknown Attack" when the trigger is empty. */
  function PatchLabel(v: RulesRoute.PatchView): (name: string)
    ensures name != []
    ensures RulesRoute.Trigger(v) != [] ==> name == RulesRoute.Trigger(v)
  {
    if RulesRoute.Trigger(v) != [] then RulesRoute.Trigger(v) else UnknownAttack
  }

  function Present<T>(field: Option<seq<T>>): seq<T> {
    match field
    case Some(items) => items
    case None => []
  }

  /** Lines 37-47: every rule, then every patch, each in the order received. */
  function Combine(data: RulesData): (c: seq<DefenceItem>)
    ensures |c| == |Present(data.rules)| + |Present(data.patches)|
    ensures forall i :: 0 <= i < |Present(data.rules)| ==> c[i] == RuleItem(Present(data.rules)[i])
    ensures forall j :: 0 <= j < |Present(data.patches)| ==>
              c[|Present(data.rules)| + j] == PatchItem(PatchLabel(Present(data.patches)[j]))
  {
    var rules := Present(data.rules);
    var patches := Present(data.patches);
    seq(|rules|, i requires 0 <= i < |rules| => RuleItem(rules[i]))
    + seq(|patches|, j requires 0 <= j < |patches| => PatchItem(PatchLabel(patches[j])))
  }

  /** Across the two sides: the list the console shows for the rules
      endpoint's reply has one item per active rule and one per history
      entry, and the "Unknown Attack" label marks exactly the stored patch
      records with an empty trigger (a history entry that does not parse is
      labelled "Unknown"). */
  lemma DefenceListMirrorsStore(s: State, readOk: bool)
    ensures var reply := RulesRoute.GetRules(s, true, readOk);
            var c := Combine(RulesData(Some(reply.rules), Some(reply.patches)));
            && |c| == |s.firewallRules| + |s.patchHistory|
            && forall j :: 0 <= j < |s.patchHistory| ==>
                 (c[|s.firewallRules| + j] == PatchItem(UnknownAttack)
                  <==> s.patchHistory[j].Encoded? && s.patchHistory[j].value.trigger in [[], UnknownAttack])
  {
    var reply := RulesRoute.GetRules(s, true, readOk);
    var c := Combine(RulesData(Some(reply.rules), Some(reply.patches)));
    assert reply.rules == s.firewallRules && |reply.patches| == |s.patchHistory|;
    forall j | 0 <= j < |s.patchHistory|
      ensures c[|s.firewallRules| + j] == PatchItem(UnknownAttack)
              <==> s.patchHistory[j].Encoded? && s.patchHistory[j].value.trigger in [[], UnknownAttack]
    {
      assert c[|s.firewallRules| + j] == PatchItem(PatchLabel(reply.patches[j]));
      UnknownLabelMarks(reply.patches[j]);
    }
  }

  /** The fallback label marks a parsed record whose trigger is empty, or
      is itself "Unknown Attack"; the placeholder of an unparsable entry is
      labelled "Unknown". */
  lemma UnknownLabelMarks(v: RulesRoute.PatchView)
    ensures PatchLabel(v) == UnknownAttack
            <==> RulesRoute.StoredEntry(v).Encoded? && RulesRoute.StoredEntry(v).value.trigger in [[], UnknownAttack]
  {
    assert RulesRoute.UnknownTrigger != UnknownAttack;
  }

  datatype Target = HoneypotTarget | ProdTarget

  /** The target's name in capitals. */
  function TargetName(t: Target): string {
    match t
    case HoneypotTarget => "HONEYPOT"
    case ProdTarget => "PROD"
  }

  /** The JSON body an attack posts. */
  datatype AttackBody = CommandOnly(command: string) | CommandAndPassword(command: string, password: string)

  /** The request of an attack: the endpoint, the query parameters in the
      order they are set (their URL encoding is left out), and the body. */
  datatype AttackRequest = AttackRequest(endpoint: string, query: seq<(string, string)>, body: AttackBody)

  const HoneypotEndpoint: string := "/api/honeypot"
  const ProdEndpoint: string := "/api/prod"

  /** Lines 68-84. */
  function BuildRequest(target: Target, command: string, password: string): (r: AttackRequest)
    ensures target == HoneypotTarget <==> r.endpoint == HoneypotEndpoint
    ensures target == ProdTarget <==> r.endpoint == ProdEndpoint
    ensures target == HoneypotTarget ==> r.query == [] && r.body == CommandOnly(command)
    ensures target == ProdTarget ==> r.body == CommandAndPassword(command, password)
    ensures target == ProdTarget ==>
              && (("q", command) in r.query <==> command != [])
              && (("p", password) in r.query <==> password != [])
              && (forall i :: 0 <= i < |r.query| ==> r.query[i].1 != [] && (r.query[i].0 == "q" || r.query[i].0 == "p"))
              && |r.query| == (if command != [] then 1 else 0) + (if password != [] then 1 else 0)
              && (|r.query| == 2 ==> r.query[0].0 == "q")
  {
    match target
    case HoneypotTarget => AttackRequest(HoneypotEndpoint, [], CommandOnly(command))
    case ProdTarget =>
      var q := if command != [] then [("q", command)] else [];
      var p := if password != [] then [("p", password)] else [];
      AttackRequest(ProdEndpoint, q + p, CommandAndPassword(command, password))
  }

  /** The body of an answer as `res.json()` reads it: text that is not JSON,
      or an object whose `output` is `output` (`""` when absent or falsy). */
  datatype AnswerBody = NotJson | Json(output: string)

  /** How the fetch ended. */
  datatype Answer = Unreachable | Answered(status: nat, body: AnswerBody)

  const RefusedLine: string := "! CONNECTION REFUSED [403]: FIREWALL BLOCKED PACKET."
  const FatalLine: string := "! FATAL: Network Unreachable"
  const AckPrefix: string := "+ ACK ["
  const AckSeparator: string := "]: "
  const ShellGranted: string := "Shell Access Granted"

  /** The output field, or "Shell Access Granted" when it is empty. */
  function Shown(output: string): (s: string)
    ensures s != []
    ensures output != [] ==> s == output
  {
    if output != [] then output else ShellGranted
  }

  /** Lines 87-104: the terminal line an answer adds. A body that is not
      JSON throws inside the `try` and ends in the catch's line. */
  function OutcomeLine(answer: Answer): (line: string)
    ensures answer.Answered? && answer.status == 403 ==> line == RefusedLine
    ensures answer.Unreachable? || (answer.status != 403 && answer.body.NotJson?) ==> line == FatalLine
    ensures answer.Answered? && answer.status != 403 && answer.body.Json? ==>
              exists digits ::
                && Canonical(digits) && DigitsValue(digits) == answer.status
                && line == AckPrefix + digits + AckSeparator + Shown(answer.body.output)
  {
    match answer
    case Unreachable => FatalLine
    case Answered(status, body) =>
      if status == 403 then RefusedLine
      else
        match body
        case NotJson => FatalLine
        case Json(output) =>
          DecimalRoundTrip(status);
          AckPrefix + Decimal(status) + AckSeparator + Shown(output)
  }

  /** Lines 63-107: the two lines an attack adds to the terminal. */
  function AttackLines(target: Target, answer: Answer): (lines: seq<string>)
    ensures |lines| == 2
    ensures lines[0] == "> INJECTING PAYLOAD TO " + TargetName(target) + "..."
    ensures lines[1] == OutcomeLine(answer)
  {
    ["> INJECTING PAYLOAD TO " + TargetName(target) + "...", OutcomeLine(answer)]
  }

  /** The honeypot's reply as the console receives it. */
  function Receive(reply: Honeypot.Reply): Answer {
    match reply.body
    case Output(text) => Answered(reply.status, Json(text))
    case ErrorField(_) => Answered(reply.status, Json([]))
  }

  lemma Decimal400()
    ensures Decimal(400) == "400"
  {
    assert Decimal(4) == "4";
    assert Decimal(40) == "40";
  }

  lemma Decimal200()
    ensures Decimal(200) == "200"
  {
    assert Decimal(2) == "2";
    assert Decimal(20) == "20";
  }

  /** End to end: an attack with an empty command is answered 400 without an
      `output` field, so the terminal claims shell access anyway. */
  lemma EmptyCommandShowsShellGranted(s: State, env: Honeypot.Env, forwardedFor: Option<string>)
    ensures var o := Honeypot.HandleRequest(s, Honeypot.Request(Honeypot.Json(Some([]), None), forwardedFor), env);
            OutcomeLine(Receive(o.reply)) == AckPrefix + "400" + AckSeparator + ShellGranted
  {
    var o := Honeypot.HandleRequest(s, Honeypot.Request(Honeypot.Json(Some([]), None), forwardedFor), env);
    assert o.reply == Honeypot.Reply(400, Honeypot.ErrorField(Honeypot.CommandRequired));
    assert Receive(o.reply) == Answered(400, Json([]));
    AnswerLine(400, []);
    Decimal400();
  }

  /** A JSON answer with any status but 403 shows the status and the output,
      or the shell-access line when the output is empty. */
  lemma AnswerLine(status: nat, output: string)
    requires status != 403
    ensures OutcomeLine(Answered(status, Json(output))) == AckPrefix + Decimal(status) + AckSeparator + Shown(output)
  {
  }

  /** End to end: a command a rule blocks shows the fixed blocked output with
      status 200, not the refused line reserved for status 403. */
  lemma BlockedCommandShowsBlockedOutput(s: State, env: Honeypot.Env, command: string, forwardedFor: Option<string>)
    requires command != []
    requires Firewall.Evaluate(env.regex, s.firewallRules, command).Blocked?
    ensures var o := Honeypot.HandleRequest(s, Honeypot.Request(Honeypot.Json(Some(command), None), forwardedFor), env);
            OutcomeLine(Receive(o.reply)) == AckPrefix + "200" + AckSeparator + Honeypot.BlockedOutput
  {
    var o := Honeypot.HandleRequest(s, Honeypot.Request(Honeypot.Json(Some(command), None), forwardedFor), env);
    Honeypot.BlockedRequest(s, Honeypot.Request(Honeypot.Json(Some(command), None), forwardedFor), env);
    assert o.reply == Honeypot.Reply(200, Honeypot.Output(Honeypot.BlockedOutput));
    assert Receive(o.reply) == Answered(200, Json(Honeypot.BlockedOutput));
    AnswerLine(200, Honeypot.BlockedOutput);
    Decimal200();
  }

  const HiddenPlaceholder: string := "************"

  /** `n` copies of `unit`, one after the other: the first copy is `unit`
      and every later character repeats the one a unit-length before it. */
  function Repeat(unit: string, n: nat): (r: string)
    ensures |r| == |unit| * n
    ensures n > 0 ==> StartsWith(r, unit)
    ensures forall i :: |unit| <= i < |r| ==> r[i] == r[i - |unit|]
  {
    if n == 0 then [] else unit + Repeat(unit, n - 1)
  }

  lemma {:induction false} RepeatOneChar(c: char, n: nat)
    ensures forall i :: 0 <= i < n ==> Repeat([c], n)[i] == c
  {
    if n > 0 {
      RepeatOneChar(c, n - 1);
      assert Repeat([c], n) == [c] + Repeat([c], n - 1);
    }
  }

  /** The mask unit as the source file spells it: the three characters
      U+00E2 U+20AC U+00A2, which is the UTF-8 encoding of a bullet read
      back as Windows-1252. */
  const MojibakeBullet: string := "\U{00E2}\U{20AC}\U{00A2}"
  /** The bullet the mask evidently means, U+2022. */
  const Bullet: string := "\U{2022}"

  /** Line 271 as written. */
  function PasswordDisplayAsWritten(password: string, visible: bool): string {
    if visible then
      if password != [] then password else HiddenPlaceholder
    else if password != [] then Repeat(MojibakeBullet, |password|) else HiddenPlaceholder
  }

  /** Line 271 with the intended bullet: an empty password always shows the
      placeholder; a visible one shows itself; a hidden one shows one
      bullet per character. */
  function PasswordDisplay(password: string, visible: bool): (d: string)
    ensures password == [] ==> d == HiddenPlaceholder
    ensures password != [] && visible ==> d == password
    ensures password != [] && !visible ==> |d| == |password| && forall i :: 0 <= i < |d| ==> d[i] == Bullet[0]
  {
    if visible then
      if password != [] then password else HiddenPlaceholder
    else if password != [] then
      RepeatOneChar(Bullet[0], |password|);
      Repeat(Bullet, |password|)
    else HiddenPlaceholder
  }

  /** As written, a hidden password shows three characters per character
      typed, so the field hides the password but is three times too long and
      shows "â€¢" for each. */
  lemma MaskAsWrittenIsThreeTimesLonger(password: string)
    requires password != []
    ensures |PasswordDisplayAsWritten(password, false)| == 3 * |password|
    ensures PasswordDisplayAsWritten(password, false)[..3] == MojibakeBullet
    ensures PasswordDisplayAsWritten(password, false) != PasswordDisplay(password, false)
  {
  }

  /** Apart from the mask character the two agree. */
  lemma MaskFixChangesOnlyHiddenDisplay(password: string, visible: bool)
    requires visible || password == []
    ensures PasswordDisplayAsWritten(password, visible) == PasswordDisplay(password, visible)
  {
  }
}

=== FILE: defense.dfy ===
/** The evolution engine (`evolveFirewallRule`): take one attack, ask the
    generator for a blocking rule and a full replacement of the protected
    artifact, and apply the replacement. The generator, `JSON.parse` and the
    file write are collaborators given as parameters. */
module Defense {
  import opened Wrappers
  import opened Text
  import opened Store

  /** The fields read from the generator's JSON answer; an absent field
      reads as the empty string. */
  datatype FixProposal = FixProposal(firewallRule: string, codePatch: string)

  /** The collaborators of one run. `generate` receives the attack command
      and the artifact's current text and returns the response text or the
      message it threw; `parseFix` is `JSON.parse` followed by the field
      reads, `None` when either throws; `writeSucceeds` tells whether
      overwriting the artifact succeeds. */
  datatype Env = Env(
    now: int,
    generate: (string, string) -> Result<string>,
    parseFix: string -> Option<FixProposal>,
    writeSucceeds: bool)

  /** The object the run returns: `success: true` with the analysed command,
      the generated rule and whether the patch was applied, or
      `success: false` with a message. */
  datatype Evolution =
    | Evolved(analyzedCommand: string, generatedRule: string, patchApplied: bool)
    | NotEvolved(message: string)

  const NothingToAnalyze: string := "No new attacks to analyze."
  const FailedToEvolve: string := "Failed to evolve"
  /** The rule reported when the generator's text does not parse. */
  const FallbackRule: string := "/.*/"

  const Fence: string := "```"
  const JsonFence: string := "```json"

  function DropPrefix(s: string, p: string): string {
    if StartsWith(s, p) then s[|p|..] else s
  }

  function DropSuffix(s: string, p: string): string {
    if EndsWith(s, p) then s[..|s| - |p|] else s
  }

  /** Line 90: remove a leading "```json", then a leading "```", then a
      trailing "```" (each anchored at the very start or end of the text),
      and only then trim. */
  function StripFences(text: string): string {
    Trim(DropSuffix(DropPrefix(DropPrefix(text, JsonFence), Fence), Fence))
  }

  /** A JSON body wrapped in a json fence comes out as the trimmed body, as
      long as the body does not itself start a second fence. */
  lemma StripFencesUnwraps(body: string)
    requires !StartsWith(body + Fence, Fence)
    ensures StripFences(JsonFence + body + Fence) == Trim(body)
  {
    var text := JsonFence + body + Fence;
    assert StartsWith(text, JsonFence) by { assert text[..|JsonFence|] == JsonFence; }
    assert DropPrefix(text, JsonFence) == body + Fence;
    assert EndsWith(body + Fence, Fence) by { assert (body + Fence)[|body|..] == Fence; }
    assert (body + Fence)[..|body|] == body;
  }

  /** A fence preceded by white space is not removed: when the text starts
      with white space and does not end in a fence, stripping is plain
      trimming and any fence after the white space stays. */
  lemma StripFencesKeepsIndentedFence(text: string)
    requires |text| > 0 && IsJsSpace(text[0]) && !EndsWith(text, Fence)
    ensures StripFences(text) == Trim(text)
  {
    assert !StartsWith(text, JsonFence) && !StartsWith(text, Fence);
  }

  /** A fence followed by white space is not removed either: when the text
      ends in white space and does not start with a fence, stripping is
      plain trimming and a fence before the trailing white space stays. */
  lemma StripFencesKeepsTrailingFence(text: string)
    requires |text| > 0 && IsJsSpace(text[|text| - 1]) && !StartsWith(text, Fence)
    ensures StripFences(text) == Trim(text)
  {
    assert !StartsWith(text, JsonFence) && !EndsWith(text, Fence);
  }

  /** Lines 47-53: the log to analyse, and the store after obtaining it. A
      truthy supplied log is used as given; otherwise the head of
      `attack:logs` is popped (`lpop`), consuming it. */
  function SourceAttack(s: State, supplied: Option<Entry<AttackRecord>>): (State, Option<Entry<AttackRecord>>) {
    if supplied.Some? && Truthy(supplied.value) then (s, supplied)
    else if |s.attackLogs| == 0 then (s, None)
    else (s.(attackLogs := s.attackLogs[1..]), Some(s.attackLogs[0]))
  }

  /** Whether a run reports an applied patch. */
  predicate Applied(r: Evolution) {
    r.Evolved? && r.patchApplied
  }

  /** Lines 108-134, once the generator's answer has been read: a non-empty
      patch whose write succeeds replaces the artifact and is pushed onto the
      patch history; nothing else is touched. */
  function ApplyFix(s: State, command: string, fix: FixProposal, env: Env): (r: (State, Evolution))
    ensures r.1.Evolved? && r.1.analyzedCommand == command && r.1.generatedRule == fix.firewallRule
    ensures Applied(r.1) <==> fix.codePatch != [] && env.writeSucceeds
    ensures Applied(r.1) ==>
              r.0 == s.(artifact := Some(fix.codePatch),
                        patchHistory := [Encoded(PatchRecord(env.now, command, fix.codePatch))] + s.patchHistory)
    ensures !Applied(r.1) ==> r.0 == s
  {
    if fix.codePatch != [] && env.writeSucceeds then
      var record := PatchRecord(env.now, command, fix.codePatch);
      (s.(artifact := Some(fix.codePatch), patchHistory := [Encoded(record)] + s.patchHistory),
       Evolved(command, fix.firewallRule, true))
    else (s, Evolved(command, fix.firewallRule, false))
  }

  /** The whole run, lines 43-140. Besides the pop of the log it consumed,
      only the artifact and the patch history can change; they change
      together, by one pushed record, exactly when the result reports an
      applied patch. The active rules never change. */
  function Evolve(s: State, supplied: Option<Entry<AttackRecord>>, env: Env): (r: (State, Evolution))
    ensures r.0.firewallRules == s.firewallRules
    ensures r.0.firewallLogs == s.firewallLogs && r.0.activity == s.activity && r.0.cache == s.cache
    ensures r.0.attackLogs == s.attackLogs || (|s.attackLogs| > 0 && r.0.attackLogs == s.attackLogs[1..])
    ensures |r.0.patchHistory| == |s.patchHistory| + (if Applied(r.1) then 1 else 0)
    ensures Applied(r.1) ==>
              && r.0.artifact.Some? && r.0.artifact.value != []
              && r.0.patchHistory == [Encoded(PatchRecord(env.now, r.1.analyzedCommand, r.0.artifact.value))] + s.patchHistory
    ensures !Applied(r.1) ==> r.0.artifact == s.artifact && r.0.patchHistory == s.patchHistory
  {
    var (s1, log) := SourceAttack(s, supplied);
    if log.None? || !Truthy(log.value) then (s1, NotEvolved(NothingToAnalyze))
    else
      match log.value
      case Raw(_) => (s1, NotEvolved(FailedToEvolve))
      case Encoded(record) => Analyse(s1, record, env)
  }

  /** Lines 64-139 for a log that parsed: ask the generator for a fix
      against the current artifact and apply what it proposes. */
  function Analyse(s: State, record: AttackRecord, env: Env): (State, Evolution) {
    match s.artifact
    case None => (s, NotEvolved(FailedToEvolve))
    case Some(current) =>
      match env.generate(record.command, current)
      case Failure(_) => (s, NotEvolved(FailedToEvolve))
      case Success(text) => ApplyFix(s, record.command, ReadFix(text, env), env)
  }

  /** Lines 90-99: the generator's answer with its fences stripped, parsed;
      an answer that does not parse yields the fallback rule and no patch. */
  function ReadFix(text: string, env: Env): FixProposal {
    env.parseFix(StripFences(text)).GetOr(FixProposal(FallbackRule, ""))
  }

  /** Lines 47-53 and 64-65: a truthy supplied log is analysed as given and
      the raw log list is left alone; without one the head is consumed, and
      a successful run analyses the command that head carried. */
  lemma EvolveSourcing(s: State, supplied: Option<Entry<AttackRecord>>, env: Env)
    ensures var (s', r) := Evolve(s, supplied, env);
            && (supplied.Some? && Truthy(supplied.value) ==>
                  s'.attackLogs == s.attackLogs
                  && (r.Evolved? ==> supplied.value.Encoded? && r.analyzedCommand == supplied.value.value.command))
            && (!(supplied.Some? && Truthy(supplied.value)) && |s.attackLogs| > 0 ==>
                  s'.attackLogs == s.attackLogs[1..]
                  && (r.Evolved? ==> s.attackLogs[0].Encoded? && r.analyzedCommand == s.attackLogs[0].value.command))
  {
  }

  /** Lines 60-62: with no log to analyse the run reports it, and the
      artifact, the patch history and the rules are untouched. */
  lemma EvolveWithoutAttack(s: State, supplied: Option<Entry<AttackRecord>>, env: Env)
    requires !(supplied.Some? && Truthy(supplied.value))
    requires |s.attackLogs| == 0 || !Truthy(s.attackLogs[0])
    ensures var (s', r) := Evolve(s, supplied, env);
            && r == NotEvolved(NothingToAnalyze)
            && s'.artifact == s.artifact && s'.patchHistory == s.patchHistory
            && s'.firewallRules == s.firewallRules
  {
  }

  /** Lines 92-99 and 129-134: when the stripped text does not parse, the
      run still succeeds, reports the fallback rule, and writes nothing. */
  lemma EvolveUnparsableAnswer(s: State, record: AttackRecord, env: Env)
    requires s.artifact.Some?
    requires env.generate(record.command, s.artifact.value).Success?
    requires env.parseFix(StripFences(env.generate(record.command, s.artifact.value).value)).None?
    ensures Evolve(s, Some(Encoded(record)), env) == (s, Evolved(record.command, FallbackRule, false))
  {
    var text := env.generate(record.command, s.artifact.value).value;
    ReadFixFallback(text, env);
    EvolveOfRecord(s, record, env);
    AnalyseWithAnswer(s, record, env, text);
  }

  lemma AnalyseWithAnswer(s: State, record: AttackRecord, env: Env, text: string)
    requires s.artifact.Some? && env.generate(record.command, s.artifact.value) == Success(text)
    ensures Analyse(s, record, env) == ApplyFix(s, record.command, ReadFix(text, env), env)
  {
  }

  lemma ReadFixFallback(text: string, env: Env)
    requires env.parseFix(StripFences(text)).None?
    ensures ReadFix(text, env) == FixProposal(FallbackRule, "")
  {
  }

  /** A supplied parsed log goes straight to the analysis. */
  lemma EvolveOfRecord(s: State, record: AttackRecord, env: Env)
    ensures Evolve(s, Some(Encoded(record)), env) == Analyse(s, record, env)
  {
    assert SourceAttack(s, Some(Encoded(record))) == (s, Some(Encoded(record)));
  }

  /** Lines 109-126: a non-empty patch is written over the artifact and
      recorded once in the history with the analysed command as trigger; a
      failed write leaves both alone and the run still succeeds. */
  lemma EvolveAppliesPatch(s: State, record: AttackRecord, env: Env, fix: FixProposal)
    requires s.artifact.Some?
    requires env.generate(record.command, s.artifact.value).Success?
    requires env.parseFix(StripFences(env.generate(record.command, s.artifact.value).value)) == Some(fix)
    requires fix.codePatch != []
    ensures var (s', r) := Evolve(s, Some(Encoded(record)), env);
            && r == Evolved(record.command, fix.firewallRule, env.writeSucceeds)
            && (env.writeSucceeds ==>
                  s' == s.(artifact := Some(fix.codePatch),
                           patchHistory := [Encoded(PatchRecord(env.now, record.command, fix.codePatch))] + s.patchHistory))
            && (!env.writeSucceeds ==> s' == s)
  {
    var text := env.generate(record.command, s.artifact.value).value;
    assert ReadFix(text, env) == fix;
    EvolveOfRecord(s, record, env);
    AnalyseWithAnswer(s, record, env, text);
  }

  /** Lines 64 and 136-139: a log that does not parse, a missing artifact or
      a generator error ends the run with "Failed to evolve"; the only
      change left behind is the consumed log. */
  lemma EvolveFailures(s: State, supplied: Option<Entry<AttackRecord>>, env: Env)
    ensures var (s', r) := Evolve(s, supplied, env);
            var (s1, log) := SourceAttack(s, supplied);
            (log.Some? && Truthy(log.value)
             && (log.value.Raw? || s.artifact.None?
                 || env.generate(log.value.value.command, s.artifact.value).Failure?))
            ==> r == NotEvolved(FailedToEvolve) && s' == s1
  {
  }
}

=== FILE: firewall.dfy ===
/** The firewall evaluator of the honeypot route: how a stored rule string is
    split into a pattern and flags, and the first-match-wins loop over the
    active rules. Compiling and testing a regular expression belong to the
    JavaScript engine and are an uninterpreted `RegexEngine`. */
module Firewall {
  import opened Wrappers

  /** What `new RegExp(pattern, flags).test(input)` does: throw (a pattern
      or flags the engine rejects) or answer. */
  datatype RegexOutcome = CompileError | Tested(matched: bool)

  /** The engine, as a function of pattern, flags and input. */
  type RegexEngine = (string, string, string) -> RegexOutcome

  datatype RuleSpec = RuleSpec(pattern: string, flags: string)

  const DefaultFlags: string := "i"

  predicate IsFlagChar(c: char) {
    'a' <= c <= 'z'
  }

  /** Characters the regex `.` does not match when the `s` flag is absent. */
  predicate IsLineTerminator(c: char) {
    c == '\n' || c == '\r' || c == '\U{2028}' || c == '\U{2029}'
  }

  predicate AllFlagChars(s: string) {
    forall j :: 0 <= j < |s| ==> IsFlagChar(s[j])
  }

  /** Reference description of a match of `^\/(.*?)\/([a-z]*)$` whose second
      slash stands at `k`: the rule opens with `/`, everything after `k` is a
      lower-case letter, and the body between the slashes holds no line
      terminator. */
  predicate SplitsAt(rule: string, k: int) {
    && 0 < k < |rule|
    && rule[0] == '/'
    && rule[k] == '/'
    && AllFlagChars(rule[k + 1..])
    && forall j :: 1 <= j < k ==> !IsLineTerminator(rule[j])
  }

  /** The regex engine's search for that match: the lazy `.*?` tries the
      shortest body first, so candidate slashes are tried left to right, and
      the body cannot grow over a line terminator. */
  function ScanSplit(rule: string, k: nat): (r: Option<nat>)
    requires k >= 1
    ensures r.Some? ==> k <= r.value < |rule|
    decreases |rule| - k
  {
    if k >= |rule| then None
    else if rule[k] == '/' && AllFlagChars(rule[k + 1..]) then Some(k)
    else if IsLineTerminator(rule[k]) then None
    else ScanSplit(rule, k + 1)
  }

  /** Lines 89-96: the pattern and flags a stored rule string compiles to. */
  function ParseRule(rule: string): RuleSpec {
    if |rule| > 0 && rule[0] == '/' then
      match ScanSplit(rule, 1)
      case Some(k) =>
        var suffix := rule[k + 1..];
        RuleSpec(rule[1..k], if suffix == [] then DefaultFlags else suffix)
      case None => RuleSpec(rule, DefaultFlags)
    else RuleSpec(rule, DefaultFlags)
  }

  /** At most one slash can close the body: any later slash would have to be
      a flag letter. So the split, when there is one, is at the last slash. */
  lemma SplitIsUnique(rule: string, k: int, k': int)
    requires SplitsAt(rule, k) && SplitsAt(rule, k')
    ensures k == k'
  {
    SplitIsLastSlash(rule, k);
    SplitIsLastSlash(rule, k');
  }

  lemma SplitIsLastSlash(rule: string, k: int)
    requires SplitsAt(rule, k)
    ensures forall j :: k < j < |rule| ==> rule[j] != '/'
  {
    forall j | k < j < |rule| ensures rule[j] != '/' {
      assert rule[k + 1..][j - k - 1] == rule[j];
    }
  }

  /** The left-to-right scan finds exactly the split the reference
      description allows, from any starting point the body has reached. */
  lemma {:induction false} ScanSplitFinds(rule: string, k0: nat)
    requires 1 <= k0 && |rule| > 0 && rule[0] == '/'
    requires forall j :: 1 <= j < k0 && j < |rule| ==> !IsLineTerminator(rule[j])
    ensures forall k :: ScanSplit(rule, k0) == Some(k) ==> SplitsAt(rule, k)
    ensures ScanSplit(rule, k0).None? ==> forall k :: k0 <= k ==> !SplitsAt(rule, k)
    decreases |rule| - k0
  {
    if k0 >= |rule| {
    } else if rule[k0] == '/' && AllFlagChars(rule[k0 + 1..]) {
      assert SplitsAt(rule, k0);
    } else if IsLineTerminator(rule[k0]) {
      forall k | k0 <= k ensures !SplitsAt(rule, k) {
        if k > k0 && k < |rule| {
          assert 1 <= k0 < k;
        }
      }
    } else {
      ScanSplitFinds(rule, k0 + 1);
    }
  }

  /** Lines 89-96, stated without the scan: a rule that splits at some `k`
      compiles to the text between its first and last slash with the suffix
      as flags (`i` when the suffix is empty); any other rule is compiled
      whole with flags `i`. */
  lemma ParseRuleCharacterised(rule: string)
    ensures forall k :: SplitsAt(rule, k) ==>
              ParseRule(rule) == RuleSpec(rule[1..k], if k + 1 == |rule| then DefaultFlags else rule[k + 1..])
    ensures (forall k :: !SplitsAt(rule, k)) ==> ParseRule(rule) == RuleSpec(rule, DefaultFlags)
  {
    if |rule| > 0 && rule[0] == '/' {
      ScanSplitFinds(rule, 1);
      forall k | SplitsAt(rule, k)
        ensures ScanSplit(rule, 1) == Some(k)
      {
        match ScanSplit(rule, 1)
        case Some(k') => SplitIsUnique(rule, k, k');
        case None =>
      }
    }
  }

  /** Rule `rule` blocks `command`: it compiles and its regex matches. A rule
      whose compile or test throws does not hit. */
  predicate Hits(engine: RegexEngine, rule: string, command: string) {
    var spec := ParseRule(rule);
    engine(spec.pattern, spec.flags, command) == Tested(true)
  }

  datatype Verdict = Allowed | Blocked(index: nat, rule: string)

  /** Lines 83-138: rules are tried in store order and the first that hits
      decides; rules that fail to compile or do not match are passed over. */
  function Evaluate(engine: RegexEngine, rules: seq<string>, command: string): (v: Verdict)
    ensures v.Allowed? <==> forall i :: 0 <= i < |rules| ==> !Hits(engine, rules[i], command)
    ensures v.Blocked? ==>
              && v.index < |rules|
              && v.rule == rules[v.index]
              && Hits(engine, rules[v.index], command)
              && forall j :: 0 <= j < v.index ==> !Hits(engine, rules[j], command)
  {
    if |rules| == 0 then Allowed
    else if Hits(engine, rules[0], command) then Blocked(0, rules[0])
    else
      match Evaluate(engine, rules[1..], command)
      case Allowed => Allowed
      case Blocked(i, r) => Blocked(i + 1, r)
  }

  /** A rule that cannot hit — one that fails to compile among them — can be
      deleted from the rule set without changing which rule string blocks. */
  lemma {:induction false} DroppingMissRuleKeepsVerdict(engine: RegexEngine, rules: seq<string>, i: nat, command: string)
    requires i < |rules| && !Hits(engine, rules[i], command)
    ensures var v := Evaluate(engine, rules, command);
            var v' := Evaluate(engine, rules[..i] + rules[i + 1..], command);
            v.Allowed? == v'.Allowed? && (v.Blocked? ==> v'.rule == v.rule)
  {
    var rest := rules[..i] + rules[i + 1..];
    if i == 0 {
      assert rest == rules[1..];
    } else {
      assert rest[0] == rules[0];
      assert rest[1..] == rules[1..][..i - 1] + rules[1..][i..];
      DroppingMissRuleKeepsVerdict(engine, rules[1..], i - 1, command);
    }
  }

  /** A newly pushed rule (`lpush` puts it first) that matches a command
      blocks it, whatever rules were already there. */
  lemma PushedRuleBlocks(engine: RegexEngine, rules: seq<string>, rule: string, command: string)
    requires Hits(engine, rule, command)
    ensures Evaluate(engine, [rule] + rules, command) == Blocked(0, rule)
  {
  }
}

=== FILE: honeypot.dfy ===
/** The honeypot request pipeline (`POST /api/honeypot`): validate the
    command, log it, run the firewall, and either record a block or answer
    through a generator, file the engagement with its severity, capture
    evidence for non-Low severities, and run the evolution engine. Every
    collaborator's answer is a parameter; `calls` lists the collaborator
    requests the pipeline makes, in order. */
module Honeypot {
  import opened Wrappers
  import opened Store
  import opened Firewall
  import opened Triage
  import Defense

  /** The request body: unreadable JSON (with the parser's message) or the
      fields the route reads. */
  datatype Body = Unreadable(message: string) | Json(command: Option<string>, timestamp: Option<int>)

  /** `forwardedFor` is the `x-forwarded-for` header. */
  datatype Request = Request(body: Body, forwardedFor: Option<string>)

  /** The reply's JSON body: an output field or an error field. */
  datatype ReplyBody = Output(text: string) | ErrorField(text: string)

  datatype Reply = Reply(status: nat, body: ReplyBody)

  datatype Provider = Gemini | OpenAi

  datatype EvidenceRequest = EvidenceRequest(command: string, severity: Severity, date: string, ip: string)

  datatype Call =
    | Generate(provider: Provider, command: string)
    | CaptureEvidence(request: EvidenceRequest)
    | EvolveRun(payload: AttackRecord)

  /** The collaborators of one request. `gemini` returns the chat reply or
      the message it threw; `openAi` never throws (its helper folds errors
      into the text); `sqliteUp` tells whether table writes succeed;
      `evidence` returns the evidence path (empty when there is none) or the
      message it threw. `now` is the request's clock reading and `date` its
      formatted form. */
  datatype Env = Env(
    now: int,
    date: string,
    regex: RegexEngine,
    geminiKey: bool,
    openAiKey: bool,
    gemini: string -> Result<string>,
    openAi: string -> string,
    sqliteUp: bool,
    evidence: EvidenceRequest -> Result<string>,
    defense: Defense.Env)

  datatype Outcome = Outcome(state: State, reply: Reply, calls: seq<Call>)

  const LocalIp: string := "127.0.0.1"
  const CommandRequired: string := "Command required"
  const BlockedResponse: string := "\U{26D4}\U{FE0F} FIREWALL BLOCKED"
  const BlockedOutput: string := "\U{26D4}\U{FE0F} FIREWALL BLOCKED: Malicious Payload Detected."
  const NoProvider: string := "No AI Provider configured (Gemini or OpenAI)"
  const SystemErrorPrefix: string := "System Error: "
  /** Lifetime of a cache entry, in seconds. */
  const CacheSeconds: nat := 86400

  /** The forwarded-for header, or the loopback address when it is absent or empty. */
  function ClientIp(header: Option<string>): string {
    if header.Some? && header.value != [] then header.value else LocalIp
  }

  /** The time since the client's timestamp, in milliseconds; zero when the
      body carries no timestamp or a zero one. */
  function EngagementMs(timestamp: Option<int>, now: int): int {
    now - (if timestamp.Some? && timestamp.value != 0 then timestamp.value else now)
  }

  /** The forensic row of a blocked command. */
  function BlockedRow(date: string, command: string): ActivityRow {
    ActivityRow(date, BlockedKind, Critical, command, BlockedResponse, 0, "")
  }

  /** Lines 201-221: Gemini when its key is set, else OpenAI when its key is
      set, else none; one provider per request. */
  function ChooseProvider(env: Env): (p: Option<Provider>)
    ensures p == Some(Gemini) <==> env.geminiKey
    ensures p == Some(OpenAi) <==> !env.geminiKey && env.openAiKey
    ensures p.None? <==> !env.geminiKey && !env.openAiKey
  {
    if env.geminiKey then Some(Gemini)
    else if env.openAiKey then Some(OpenAi)
    else None
  }

  /** The generated response, or the message of the exception that fails
      the request. */
  function Respond(env: Env, command: string): (r: Result<string>)
    ensures env.geminiKey ==> r == env.gemini(command)
    ensures !env.geminiKey && env.openAiKey ==> r == Success(env.openAi(command))
    ensures !env.geminiKey && !env.openAiKey ==> r == Failure(NoProvider)
  {
    match ChooseProvider(env)
    case Some(Gemini) => env.gemini(command)
    case Some(OpenAi) => Success(env.openAi(command))
    case None => Failure(NoProvider)
  }

  /** Lines 252-303: file the engagement and, for a non-Low severity, ask for
      evidence and link a non-empty evidence path to the new row. A failed
      insert skips the rest; a failed capture leaves the row as inserted.
      Only the forensic table changes. */
  function Persist(s: State, command: string, response: string, engagementMs: int, ip: string, env: Env): (r: (State, seq<Call>))
    ensures r.0 == s.(activity := r.0.activity)
    ensures !env.sqliteUp ==> r == (s, [])
    ensures env.sqliteUp ==>
              && |r.0.activity| == |s.activity| + 1
              && r.0.activity[..|s.activity|] == s.activity
              && r.0.activity[|s.activity|].(evidence := "")
                 == ActivityRow(env.date, TrappedKind, Classify(command), command, response, engagementMs, "")
    ensures r.1 != [] <==> env.sqliteUp && Classify(command) != Low
    ensures r.1 != [] ==> r.1 == [CaptureEvidence(EvidenceRequest(command, Classify(command), env.date, ip))]
    ensures env.sqliteUp && r.0.activity[|s.activity|].evidence != "" ==>
              && r.1 != []
              && env.evidence(r.1[0].request) == Success(r.0.activity[|s.activity|].evidence)
    ensures env.sqliteUp && Classify(command) != Low
            && env.evidence(EvidenceRequest(command, Classify(command), env.date, ip)).Success? ==>
              r.0.activity[|s.activity|].evidence == env.evidence(EvidenceRequest(command, Classify(command), env.date, ip)).value
    ensures env.sqliteUp && (Classify(command) == Low
                             || env.evidence(EvidenceRequest(command, Classify(command), env.date, ip)).Failure?) ==>
              r.0.activity[|s.activity|].evidence == ""
  {
    if !env.sqliteUp then (s, [])
    else
      var severity := Classify(command);
      var row := ActivityRow(env.date, TrappedKind, severity, command, response, engagementMs, "");
      if severity == Low then (s.(activity := s.activity + [row]), [])
      else
        var request := EvidenceRequest(command, severity, env.date, ip);
        var linked := match env.evidence(request)
                      case Success(path) => if path != [] then row.(evidence := path) else row
                      case Failure(_) => row;
        (s.(activity := s.activity + [linked]), [CaptureEvidence(request)])
  }

  /** The allowed path, lines 165-330, once the firewall has let the command
      through. */
  function Serve(s: State, command: string, timestamp: Option<int>, ip: string, env: Env): Outcome {
    match Respond(env, command)
    case Failure(message) =>
      Outcome(s, Reply(500, Output(SystemErrorPrefix + message)), ServeCalls(s, command, timestamp, ip, env))
    case Success(response) =>
      var cached := s.(cache := s.cache[command := CacheEntry(response, CacheSeconds)]);
      var filed := Persist(cached, command, response, EngagementMs(timestamp, env.now), ip, env).0;
      var (evolved, _) := Defense.Evolve(filed, Some(Encoded(AttackRecord(env.now, command, ip))), env.defense);
      Outcome(evolved, Reply(200, Output(response)), ServeCalls(s, command, timestamp, ip, env))
  }

  /** The collaborator requests of the allowed path, in the order made: the
      generator (when a provider is configured), the evidence capture of the
      filed row, and the evolution run with the attack as payload. */
  function ServeCalls(s: State, command: string, timestamp: Option<int>, ip: string, env: Env): seq<Call> {
    match Respond(env, command)
    case Failure(_) =>
      if ChooseProvider(env).Some? then [Generate(ChooseProvider(env).value, command)] else []
    case Success(response) =>
      var cached := s.(cache := s.cache[command := CacheEntry(response, CacheSeconds)]);
      var evidenceCalls := Persist(cached, command, response, EngagementMs(timestamp, env.now), ip, env).1;
      [Generate(ChooseProvider(env).value, command)] + evidenceCalls + [EvolveRun(AttackRecord(env.now, command, ip))]
  }

  /** The route, lines 63-339. */
  function HandleRequest(s: State, request: Request, env: Env): (o: Outcome)
    ensures o.reply.status == 400 <==> request.body.Json? && (request.body.command.None? || request.body.command.value == [])
    ensures o.reply.status == 400 ==> o.state == s && o.calls == [] && o.reply.body == ErrorField(CommandRequired)
    ensures request.body.Unreadable? ==> o == Outcome(s, Reply(500, Output(SystemErrorPrefix + request.body.message)), [])
    ensures o.state.firewallRules == s.firewallRules
    ensures request.body.Json? && request.body.command.Some? && request.body.command.value != [] ==>
              o.state.attackLogs
              == [Encoded(AttackRecord(env.now, request.body.command.value, ClientIp(request.forwardedFor)))] + s.attackLogs
  {
    match request.body
    case Unreadable(message) => Outcome(s, Reply(500, Output(SystemErrorPrefix + message)), [])
    case Json(command, timestamp) =>
      if command.None? || command.value == [] then Outcome(s, Reply(400, ErrorField(CommandRequired)), [])
      else
        var cmd := command.value;
        var ip := ClientIp(request.forwardedFor);
        var logged := s.(attackLogs := [Encoded(AttackRecord(env.now, cmd, ip))] + s.attackLogs);
        match Evaluate(env.regex, logged.firewallRules, cmd)
        case Blocked(_, rule) =>
          var hit := logged.(firewallLogs := [FirewallHit(env.now, cmd, ip, rule)] + logged.firewallLogs);
          var filed := if env.sqliteUp then hit.(activity := hit.activity + [BlockedRow(env.date, cmd)]) else hit;
          Outcome(filed, Reply(200, Output(BlockedOutput)), [])
        case Allowed => Serve(logged, cmd, timestamp, ip, env)
  }

  /** The request carries a command the route accepts. */
  predicate HasCommand(request: Request) {
    request.body.Json? && request.body.command.Some? && request.body.command.value != []
  }

  /** Whether some collaborator request of a kind was made. */
  predicate CapturedEvidence(calls: seq<Call>) {
    exists i :: 0 <= i < |calls| && calls[i].CaptureEvidence?
  }

  predicate RanEvolution(calls: seq<Call>) {
    exists i :: 0 <= i < |calls| && calls[i].EvolveRun?
  }

  predicate AskedGenerator(calls: seq<Call>) {
    exists i :: 0 <= i < |calls| && calls[i].Generate?
  }

  /** Lines 118-163: a blocked command is logged, leaves exactly one
      `firewall:logs` entry naming the first rule that hits, files the fixed
      blocked row when the table is writable, and returns the fixed output
      without asking any collaborator. */
  lemma BlockedRequest(s: State, request: Request, env: Env)
    requires HasCommand(request)
    requires Evaluate(env.regex, s.firewallRules, request.body.command.value).Blocked?
    ensures var cmd := request.body.command.value;
            var ip := ClientIp(request.forwardedFor);
            var v := Evaluate(env.regex, s.firewallRules, cmd);
            var o := HandleRequest(s, request, env);
            && o.reply == Reply(200, Output(BlockedOutput))
            && o.calls == []
            && o.state == s.(attackLogs := [Encoded(AttackRecord(env.now, cmd, ip))] + s.attackLogs,
                             firewallLogs := [FirewallHit(env.now, cmd, ip, s.firewallRules[v.index])] + s.firewallLogs,
                             activity := if env.sqliteUp then s.activity + [BlockedRow(env.date, cmd)] else s.activity)
  {
  }

  /** Lines 165-337: a command no rule hits asks the configured provider.
      With none configured, or when Gemini throws (caught at lines 332-337),
      the request fails with status 500 carrying the error message, and the
      attack-log push is the only write. */
  lemma AllowedRequest(s: State, request: Request, env: Env)
    requires HasCommand(request)
    requires Evaluate(env.regex, s.firewallRules, request.body.command.value).Allowed?
    ensures var cmd := request.body.command.value;
            var o := HandleRequest(s, request, env);
            && (AskedGenerator(o.calls) <==> ChooseProvider(env).Some?)
            && (ChooseProvider(env).None? ==> Respond(env, cmd) == Failure(NoProvider))
            && (Respond(env, cmd).Failure? ==>
                  && o.reply == Reply(500, Output(SystemErrorPrefix + Respond(env, cmd).message))
                  && o.state == s.(attackLogs := [Encoded(AttackRecord(env.now, cmd, ClientIp(request.forwardedFor)))] + s.attackLogs))
            && (RanEvolution(o.calls) <==> Respond(env, cmd).Success?)
            && (Respond(env, cmd).Success? ==>
                  && o.reply == Reply(200, Output(Respond(env, cmd).value))
                  && o.state.cache == s.cache[cmd := CacheEntry(Respond(env, cmd).value, CacheSeconds)]
                  && o.state.attackLogs == [Encoded(AttackRecord(env.now, cmd, ClientIp(request.forwardedFor)))] + s.attackLogs
                  && o.state.firewallLogs == s.firewallLogs
                  && (env.sqliteUp ==>
                        && |o.state.activity| == |s.activity| + 1
                        && o.state.activity[..|s.activity|] == s.activity
                        && o.state.activity[|s.activity|].(evidence := "")
                           == ActivityRow(env.date, TrappedKind, Classify(cmd), cmd, Respond(env, cmd).value,
                                          EngagementMs(request.body.timestamp, env.now), ""))
                  && (!env.sqliteUp ==> o.state.activity == s.activity)
                  && ((o.state.artifact == s.artifact && o.state.patchHistory == s.patchHistory)
                      || (&& o.state.artifact.Some?
                          && o.state.patchHistory
                             == [Encoded(PatchRecord(env.defense.now, cmd, o.state.artifact.value))] + s.patchHistory)))
  {
    var cmd := request.body.command.value;
    var o := HandleRequest(s, request, env);
    if ChooseProvider(env).Some? {
      assert o.calls[0].Generate?;
    }
    if Respond(env, cmd).Success? {
      var ip := ClientIp(request.forwardedFor);
      var payload := AttackRecord(env.now, cmd, ip);
      assert o.calls[|o.calls| - 1] == EvolveRun(payload);
      var logged := s.(attackLogs := [Encoded(payload)] + s.attackLogs);
      var cached := logged.(cache := logged.cache[cmd := CacheEntry(Respond(env, cmd).value, CacheSeconds)]);
      var filed := Persist(cached, cmd, Respond(env, cmd).value, EngagementMs(request.body.timestamp, env.now), ip, env).0;
      assert o.state == Defense.Evolve(filed, Some(Encoded(payload)), env.defense).0;
      Defense.EvolveSourcing(filed, Some(Encoded(payload)), env.defense);
    } else {
      assert |o.calls| <= 1 && forall i :: 0 <= i < |o.calls| ==> o.calls[i].Generate?;
    }
  }

  /** Lines 264-303: evidence is requested only for an allowed, answered
      command whose row was filed and whose severity is not Low. */
  lemma EvidenceGating(s: State, request: Request, env: Env)
    ensures var o := HandleRequest(s, request, env);
            CapturedEvidence(o.calls)
            <==> && HasCommand(request)
                 && Evaluate(env.regex, s.firewallRules, request.body.command.value).Allowed?
                 && Respond(env, request.body.command.value).Success?
                 && env.sqliteUp
                 && Classify(request.body.command.value) != Low
  {
    var o := HandleRequest(s, request, env);
    if HasCommand(request) {
      var cmd := request.body.command.value;
      var ip := ClientIp(request.forwardedFor);
      var logged := s.(attackLogs := [Encoded(AttackRecord(env.now, cmd, ip))] + s.attackLogs);
      if Evaluate(env.regex, s.firewallRules, cmd).Allowed? {
        assert o.calls == ServeCalls(logged, cmd, request.body.timestamp, ip, env);
        ServeEvidence(logged, cmd, request.body.timestamp, ip, env);
      } else {
        assert o.calls == [];
      }
    } else {
      assert o.calls == [];
    }
  }

  /** The allowed path asks for evidence exactly when the command was
      answered, its row was filed and it is not Low. */
  lemma ServeEvidence(s: State, command: string, timestamp: Option<int>, ip: string, env: Env)
    ensures CapturedEvidence(ServeCalls(s, command, timestamp, ip, env))
            <==> Respond(env, command).Success? && env.sqliteUp && Classify(command) != Low
  {
    var calls := ServeCalls(s, command, timestamp, ip, env);
    match Respond(env, command)
    case Failure(_) =>
      assert forall i :: 0 <= i < |calls| ==> calls[i].Generate?;
    case Success(response) =>
      var cached := s.(cache := s.cache[command := CacheEntry(response, CacheSeconds)]);
      var evidenceCalls := Persist(cached, command, response, EngagementMs(timestamp, env.now), ip, env).1;
      if evidenceCalls != [] {
        assert calls[1].CaptureEvidence?;
      } else {
        assert forall i :: 0 <= i < |calls| ==> !calls[i].CaptureEvidence?;
      }
  }

  /** Lines 169, 252-330: the reply depends neither on the cache (it is
      never read), nor on the forensic table, the artifact or the patch
      history, nor on whether the table, the evidence capture or the
      evolution run succeed: their failures are absorbed. */
  lemma ReplyIgnoresSideEffects(s: State, request: Request, env: Env,
                                cache: map<string, CacheEntry>, activity: seq<ActivityRow>,
                                artifact: Option<string>, history: seq<Entry<PatchRecord>>,
                                sqliteUp: bool, evidence: EvidenceRequest -> Result<string>,
                                defense: Defense.Env)
    ensures HandleRequest(s.(cache := cache, activity := activity, artifact := artifact, patchHistory := history),
                          request, env.(sqliteUp := sqliteUp, evidence := evidence, defense := defense)).reply
            == HandleRequest(s, request, env).reply
  {
  }

  /** Lines 75-81 and 118-133 with the evolution loop closed by hand: a
      command that gets through, once an operator pushes a rule that matches
      it, is blocked by that rule on its next attempt. */
  lemma PushedRuleBlocksNextAttempt(s: State, request: Request, env: Env, rule: string)
    requires HasCommand(request)
    requires Hits(env.regex, rule, request.body.command.value)
    ensures var o := HandleRequest(s.(firewallRules := [rule] + s.firewallRules), request, env);
            && o.reply == Reply(200, Output(BlockedOutput))
            && o.state.firewallLogs[0].rule == rule
  {
    PushedRuleBlocks(env.regex, s.firewallRules, rule, request.body.command.value);
  }
}

=== FILE: logs_route.dfy ===
/** The logs endpoint (`GET /api/logs`): the newest 500 forensic rows, each
    mapped to the log shape the dashboards read and filed under `blocked`
    when its type is the blocked-row type, under `trapped` otherwise. */
module LogsRoute {
  import opened Wrappers
  import opened Store

  /** At most this many rows are read. */
  const RowLimit: nat := 500

  /** The loopback address every entry reports. */
  const PlaceholderIp: string := "127.0.0.1"

  /** One entry of either list. `rule` carries the row's recorded response. */
  datatype LogView = LogView(command: string, timestamp: int, ip: string, rule: string)

  /** Parsing a date text to epoch milliseconds: `None` for an invalid date. */
  type DateParser = string -> Option<int>

  /** Lines 8-9: the newest rows first, at most 500, over the table, which holds its
      rows in id order. */
  function NewestFirst(rows: seq<ActivityRow>): (q: seq<ActivityRow>)
    ensures |q| == if |rows| < RowLimit then |rows| else RowLimit
    ensures forall i :: 0 <= i < |q| ==> q[i] == rows[|rows| - 1 - i]
  {
    var n := if |rows| < RowLimit then |rows| else RowLimit;
    seq(n, i requires 0 <= i < n => rows[|rows| - 1 - i])
  }

  /** Lines 12-23: the time is the row's date when that parses to a non-zero
      time, and the request's clock when it is invalid or zero, both of which
      are falsy. */
  function FormatLog(row: ActivityRow, parseDate: DateParser, now: int): (v: LogView)
    ensures v.command == row.input && v.rule == row.response && v.ip == PlaceholderIp
    ensures parseDate(row.date).Some? && parseDate(row.date).value != 0 ==> v.timestamp == parseDate(row.date).value
    ensures parseDate(row.date) == None || parseDate(row.date) == Some(0) ==> v.timestamp == now
    ensures v.timestamp != 0 || now == 0
  {
    var ts := match parseDate(row.date)
              case Some(t) => if t != 0 then t else now
              case None => now;
    LogView(row.input, ts, PlaceholderIp, row.response)
  }

  predicate IsBlockedRow(row: ActivityRow) {
    row.kind == BlockedKind
  }

  /** How many of `rows` are blocked rows. */
  function CountBlocked(rows: seq<ActivityRow>): (n: nat)
    ensures n <= |rows|
  {
    if |rows| == 0 then 0
    else (if IsBlockedRow(rows[0]) then 1 else 0) + CountBlocked(rows[1..])
  }

  /** Line 26: the formatted blocked rows, in the order given. */
  function BlockedLogs(rows: seq<ActivityRow>, parseDate: DateParser, now: int): (b: seq<LogView>)
    ensures |b| == CountBlocked(rows)
  {
    if |rows| == 0 then []
    else (if IsBlockedRow(rows[0]) then [FormatLog(rows[0], parseDate, now)] else [])
         + BlockedLogs(rows[1..], parseDate, now)
  }

  /** Line 25: the formatted other rows, in the order given. */
  function TrappedLogs(rows: seq<ActivityRow>, parseDate: DateParser, now: int): (t: seq<LogView>)
    ensures |t| == |rows| - CountBlocked(rows)
  {
    if |rows| == 0 then []
    else (if IsBlockedRow(rows[0]) then [] else [FormatLog(rows[0], parseDate, now)])
         + TrappedLogs(rows[1..], parseDate, now)
  }

  /** The two lists are a stable partition of the rows: row `i` lands in
      exactly one of them, the one its type selects, right after the rows
      before it that went to the same list. */
  lemma {:induction false} PartitionPlacesRow(rows: seq<ActivityRow>, parseDate: DateParser, now: int, i: nat)
    requires i < |rows|
    ensures var before := CountBlocked(rows[..i]);
            && before <= i
            && (IsBlockedRow(rows[i]) ==> before < CountBlocked(rows))
            && (!IsBlockedRow(rows[i]) ==> i - before < |rows| - CountBlocked(rows))
            && (IsBlockedRow(rows[i]) ==> BlockedLogs(rows, parseDate, now)[before] == FormatLog(rows[i], parseDate, now))
            && (!IsBlockedRow(rows[i]) ==> TrappedLogs(rows, parseDate, now)[i - before] == FormatLog(rows[i], parseDate, now))
    decreases i
  {
    if i == 0 {
      assert rows[..0] == [];
    } else {
      assert rows[1..][..i - 1] == rows[1..i];
      assert rows[..i][1..] == rows[1..i];
      PartitionPlacesRow(rows[1..], parseDate, now, i - 1);
    }
  }

  /** Entry `v` is the formatted form of one of the `rows` that are blocked
      rows (`blocked`) or that are not (`!blocked`). */
  predicate FormattedFrom(v: LogView, rows: seq<ActivityRow>, blocked: bool, parseDate: DateParser, now: int) {
    exists i :: 0 <= i < |rows| && IsBlockedRow(rows[i]) == blocked && v == FormatLog(rows[i], parseDate, now)
  }

  /** Conversely, every blocked entry comes from a blocked row: the list
      holds nothing else. */
  lemma BlockedEntriesComeFromBlockedRows(rows: seq<ActivityRow>, parseDate: DateParser, now: int)
    ensures var b := BlockedLogs(rows, parseDate, now);
            forall j :: 0 <= j < |b| ==> FormattedFrom(b[j], rows, true, parseDate, now)
  {
    var b := BlockedLogs(rows, parseDate, now);
    forall j | 0 <= j < |b| ensures FormattedFrom(b[j], rows, true, parseDate, now) {
      var i := BlockedEntryOrigin(rows, parseDate, now, j);
    }
  }

  /** The row blocked entry `j` was formatted from. */
  lemma {:induction false} BlockedEntryOrigin(rows: seq<ActivityRow>, parseDate: DateParser, now: int, j: nat)
    returns (i: nat)
    requires j < |BlockedLogs(rows, parseDate, now)|
    ensures i < |rows| && IsBlockedRow(rows[i])
    ensures BlockedLogs(rows, parseDate, now)[j] == FormatLog(rows[i], parseDate, now)
    decreases |rows|
  {
    var head := if IsBlockedRow(rows[0]) then 1 else 0;
    if j < head {
      i := 0;
    } else {
      var k := BlockedEntryOrigin(rows[1..], parseDate, now, j - head);
      i := k + 1;
    }
  }

  /** Likewise every trapped entry comes from a row that is not blocked. */
  lemma TrappedEntriesComeFromOtherRows(rows: seq<ActivityRow>, parseDate: DateParser, now: int)
    ensures var t := TrappedLogs(rows, parseDate, now);
            forall j :: 0 <= j < |t| ==> FormattedFrom(t[j], rows, false, parseDate, now)
  {
    var t := TrappedLogs(rows, parseDate, now);
    forall j | 0 <= j < |t| ensures FormattedFrom(t[j], rows, false, parseDate, now) {
      var i := TrappedEntryOrigin(rows, parseDate, now, j);
    }
  }

  /** The row trapped entry `j` was formatted from. */
  lemma {:induction false} TrappedEntryOrigin(rows: seq<ActivityRow>, parseDate: DateParser, now: int, j: nat)
    returns (i: nat)
    requires j < |TrappedLogs(rows, parseDate, now)|
    ensures i < |rows| && !IsBlockedRow(rows[i])
    ensures TrappedLogs(rows, parseDate, now)[j] == FormatLog(rows[i], parseDate, now)
    decreases |rows|
  {
    var head := if IsBlockedRow(rows[0]) then 0 else 1;
    if j < head {
      i := 0;
    } else {
      var k := TrappedEntryOrigin(rows[1..], parseDate, now, j - head);
      i := k + 1;
    }
  }

  datatype LogsReply = LogsReply(trapped: seq<LogView>, blocked: seq<LogView>)

  /** The route, lines 5-36. `dbUp` tells whether the query succeeds. */
  function GetLogs(s: State, dbUp: bool, parseDate: DateParser, now: int): (r: LogsReply)
    ensures !dbUp ==> r == LogsReply([], [])
    ensures |r.trapped| + |r.blocked| <= RowLimit
    ensures dbUp ==> |r.trapped| + |r.blocked| == if |s.activity| < RowLimit then |s.activity| else RowLimit
    ensures dbUp ==> r.trapped == TrappedLogs(NewestFirst(s.activity), parseDate, now)
    ensures dbUp ==> r.blocked == BlockedLogs(NewestFirst(s.activity), parseDate, now)
  {
    if !dbUp then LogsReply([], [])
    else
      var q := NewestFirst(s.activity);
      LogsReply(TrappedLogs(q, parseDate, now), BlockedLogs(q, parseDate, now))
  }

  /** Lines 8 and 25-26 together: the route's two lists are the stable
      partition of the newest rows. Every entry comes from a row of its own
      kind; every row is in the list its type selects, at the position of
      the rows of that kind before it; and of two rows of one kind, the
      newer one comes first. */
  lemma GetLogsIsStablePartition(s: State, parseDate: DateParser, now: int)
    ensures var q := NewestFirst(s.activity);
            var r := GetLogs(s, true, parseDate, now);
            forall j :: 0 <= j < |r.blocked| ==> FormattedFrom(r.blocked[j], q, true, parseDate, now)
    ensures var q := NewestFirst(s.activity);
            var r := GetLogs(s, true, parseDate, now);
            forall j :: 0 <= j < |r.trapped| ==> FormattedFrom(r.trapped[j], q, false, parseDate, now)
    ensures var q := NewestFirst(s.activity);
            var r := GetLogs(s, true, parseDate, now);
            forall i :: 0 <= i < |q| && IsBlockedRow(q[i]) ==>
              CountBlocked(q[..i]) < |r.blocked| && r.blocked[CountBlocked(q[..i])] == FormatLog(q[i], parseDate, now)
    ensures var q := NewestFirst(s.activity);
            var r := GetLogs(s, true, parseDate, now);
            forall i :: 0 <= i < |q| && !IsBlockedRow(q[i]) ==>
              0 <= i - CountBlocked(q[..i]) < |r.trapped| && r.trapped[i - CountBlocked(q[..i])] == FormatLog(q[i], parseDate, now)
    ensures var q := NewestFirst(s.activity);
            forall i, k :: 0 <= i < k < |q| && IsBlockedRow(q[i]) ==> CountBlocked(q[..i]) < CountBlocked(q[..k])
    ensures var q := NewestFirst(s.activity);
            forall i, k :: 0 <= i < k < |q| && !IsBlockedRow(q[i]) ==> i - CountBlocked(q[..i]) < k - CountBlocked(q[..k])
  {
    var q := NewestFirst(s.activity);
    var r := GetLogs(s, true, parseDate, now);
    BlockedEntriesComeFromBlockedRows(q, parseDate, now);
    TrappedEntriesComeFromOtherRows(q, parseDate, now);
    assert r.blocked == BlockedLogs(q, parseDate, now) && r.trapped == TrappedLogs(q, parseDate, now);
    forall i | 0 <= i < |q| && IsBlockedRow(q[i])
      ensures CountBlocked(q[..i]) < |r.blocked| && r.blocked[CountBlocked(q[..i])] == FormatLog(q[i], parseDate, now)
    {
      PartitionPlacesRow(q, parseDate, now, i);
    }
    forall i | 0 <= i < |q| && !IsBlockedRow(q[i])
      ensures 0 <= i - CountBlocked(q[..i]) < |r.trapped| && r.trapped[i - CountBlocked(q[..i])] == FormatLog(q[i], parseDate, now)
    {
      PartitionPlacesRow(q, parseDate, now, i);
    }
    forall i, k | 0 <= i < k < |q|
      ensures IsBlockedRow(q[i]) ==> CountBlocked(q[..i]) < CountBlocked(q[..k])
      ensures !IsBlockedRow(q[i]) ==> i - CountBlocked(q[..i]) < k - CountBlocked(q[..k])
    {
      CountBlockedGrows(q, i, k);
    }
  }

  /** Counting the blocked rows of a longer prefix: the row at `i` adds one
      exactly when it is blocked, and the rows after it add at most one each. */
  lemma {:induction false} CountBlockedGrows(rows: seq<ActivityRow>, i: nat, k: nat)
    requires i < k <= |rows|
    ensures var here := if IsBlockedRow(rows[i]) then 1 else 0;
            CountBlocked(rows[..i]) + here <= CountBlocked(rows[..k])
            <= CountBlocked(rows[..i]) + here + (k - i - 1)
    decreases k
  {
    if k == i + 1 {
      CountBlockedSnoc(rows[..i], rows[i]);
      assert rows[..i] + [rows[i]] == rows[..k];
    } else {
      CountBlockedGrows(rows, i, k - 1);
      CountBlockedSnoc(rows[..k - 1], rows[k - 1]);
      assert rows[..k - 1] + [rows[k - 1]] == rows[..k];
    }
  }

  /** Appending a row adds one to the count exactly when it is blocked. */
  lemma {:induction false} CountBlockedSnoc(rows: seq<ActivityRow>, row: ActivityRow)
    ensures CountBlocked(rows + [row]) == CountBlocked(rows) + (if IsBlockedRow(row) then 1 else 0)
  {
    if |rows| == 0 {
      assert [] + [row] == [row];
      assert [row][1..] == [];
    } else {
      assert (rows + [row])[1..] == rows[1..] + [row];
      CountBlockedSnoc(rows[1..], row);
    }
  }

  /** Lines 8 and 25-26 together: the newest row that was blocked is the
      first blocked entry, and the newest row that was not is the first
      trapped entry. */
  lemma NewestRowLeadsItsList(s: State, parseDate: DateParser, now: int)
    requires |s.activity| > 0
    ensures var last := s.activity[|s.activity| - 1];
            var r := GetLogs(s, true, parseDate, now);
            && (IsBlockedRow(last) ==> |r.blocked| > 0 && r.blocked[0] == FormatLog(last, parseDate, now))
            && (!IsBlockedRow(last) ==> |r.trapped| > 0 && r.trapped[0] == FormatLog(last, parseDate, now))
  {
    var q := NewestFirst(s.activity);
    PartitionPlacesRow(q, parseDate, now, 0);
    assert q[..0] == [];
  }
}

=== FILE: rules_route.dfy ===
/** The rules endpoint (`GET /api/rules`): the active rules as stored, the
    patch history with entries that do not parse replaced by a placeholder,
    and whether the protected artifact now uses a parameterised query. */
module RulesRoute {
  import opened Wrappers
  import opened Text
  import opened Store
  import Defense

  /** One element of `patches` in the reply: the parsed record, or the
      placeholder with trigger "Unknown" and the raw text as patch, for text that does not
      parse. */
  datatype PatchView = Parsed(record: PatchRecord) | Unknown(patch: string)

  const UnknownTrigger: string := "Unknown"

  function Trigger(v: PatchView): string {
    match v
    case Parsed(record) => record.trigger
    case Unknown(_) => UnknownTrigger
  }

  /** Lines 10-12: one history entry as the reply shows it. */
  function NormalisePatch(e: Entry<PatchRecord>): (v: PatchView)
    ensures e.Encoded? <==> v.Parsed?
    ensures e.Encoded? ==> v.record == e.value
    ensures e.Raw? ==> Trigger(v) == UnknownTrigger && v.patch == e.text
  {
    match e
    case Encoded(record) => Parsed(record)
    case Raw(text) => Unknown(text)
  }

  /** The inverse of `NormalisePatch`: the stored entry a view came from. */
  function StoredEntry(v: PatchView): Entry<PatchRecord> {
    match v
    case Parsed(record) => Encoded(record)
    case Unknown(text) => Raw(text)
  }

  /** Lines 10-12: the whole history, element by element. */
  function NormalisePatches(history: seq<Entry<PatchRecord>>): (vs: seq<PatchView>)
    ensures |vs| == |history|
    ensures forall i :: 0 <= i < |history| ==> vs[i] == NormalisePatch(history[i])
  {
    seq(|history|, i requires 0 <= i < |history| => NormalisePatch(history[i]))
  }

  /** Normalisation loses nothing: every stored entry, parsed or not, can be
      read back from its view, so the history keeps its length and order. */
  lemma NormaliseRoundTrip(history: seq<Entry<PatchRecord>>)
    ensures var vs := NormalisePatches(history);
            forall i :: 0 <= i < |history| ==> StoredEntry(vs[i]) == history[i]
  {
  }

  /** The two signs of a parameterised query in the artifact. */
  const ParamMarker: string := "WHERE username = ?"
  const TupleMarker: string := "cursor.execute(query, (username,))"

  predicate IsPatchedText(content: string) {
    Contains(content, ParamMarker) || Contains(content, TupleMarker)
  }

  datatype PatchStatus = PatchStatus(isPatched: bool, criticalLine: string)

  const Unpatched: PatchStatus := PatchStatus(false, "")

  /** Lines 15-31: `artifact` is `None` when the file does not exist and
      `readOk` whether reading it succeeds. */
  function CheckArtifact(artifact: Option<string>, readOk: bool): (st: PatchStatus)
    ensures st.isPatched <==> artifact.Some? && readOk && IsPatchedText(artifact.value)
    ensures st.isPatched ==> st.criticalLine == artifact.value
    ensures !st.isPatched ==> st == Unpatched
  {
    match artifact
    case None => Unpatched
    case Some(content) =>
      if readOk && IsPatchedText(content) then PatchStatus(true, content) else Unpatched
  }

  /** A marker is never empty, so the reply shows a non-empty critical line
      exactly when it reports the artifact patched. */
  lemma CriticalLineIffPatched(artifact: Option<string>, readOk: bool)
    ensures CheckArtifact(artifact, readOk).criticalLine != [] <==> CheckArtifact(artifact, readOk).isPatched
  {
    var st := CheckArtifact(artifact, readOk);
    if st.isPatched {
      var content := artifact.value;
      var w := if Contains(content, ParamMarker) then ParamMarker else TupleMarker;
      var k :| 0 <= k <= |content| - |w| && StartsWith(content[k..], w);
      assert |content| >= |w| > 0;
    }
  }

  datatype RulesReply = RulesReply(rules: seq<string>, patches: seq<PatchView>, patchStatus: PatchStatus)

  /** The route, lines 4-41. `storeUp` tells whether reading the two lists
      succeeds; a failure there empties the whole reply. A failure while
      checking the artifact only clears the status. */
  function GetRules(s: State, storeUp: bool, readOk: bool): (r: RulesReply)
    ensures !storeUp ==> r == RulesReply([], [], Unpatched)
    ensures storeUp ==> r.rules == s.firewallRules
    ensures storeUp ==> |r.patches| == |s.patchHistory|
                        && forall i :: 0 <= i < |r.patches| ==> StoredEntry(r.patches[i]) == s.patchHistory[i]
    ensures storeUp ==> r.patchStatus == CheckArtifact(s.artifact, readOk)
  {
    if !storeUp then RulesReply([], [], Unpatched)
    else
      NormaliseRoundTrip(s.patchHistory);
      RulesReply(s.firewallRules, NormalisePatches(s.patchHistory), CheckArtifact(s.artifact, readOk))
  }

  /** Across the two endpoints: after an evolution run applies a patch that
      uses a parameterised query, the rules endpoint reports the artifact
      patched with the patch as its critical line, lists that patch first with
      the analysed command as trigger, and shows the active rules unchanged. */
  lemma AppliedPatchIsReported(s: State, supplied: Option<Entry<AttackRecord>>, env: Defense.Env)
    requires var (_, r) := Defense.Evolve(s, supplied, env);
             Defense.Applied(r) && IsPatchedText(Defense.Evolve(s, supplied, env).0.artifact.value)
    ensures var (s', r) := Defense.Evolve(s, supplied, env);
            var reply := GetRules(s', true, true);
            && reply.patchStatus == PatchStatus(true, s'.artifact.value)
            && reply.patches[0] == Parsed(PatchRecord(env.now, r.analyzedCommand, s'.artifact.value))
            && reply.rules == s.firewallRules
  {
    var (s', r) := Defense.Evolve(s, supplied, env);
    assert s'.patchHistory[0] == Encoded(PatchRecord(env.now, r.analyzedCommand, s'.artifact.value));
  }
}

=== FILE: sorting.dfy ===
/** A stable sort by a descending integer key, the behaviour of
    `Array.prototype.sort` with a comparator that puts larger keys first:
    the language requires the sort to be stable, so its result is fully
    determined, and insertion sort computes exactly that result. */
module Sorting {

  predicate SortedDesc<T>(xs: seq<T>, key: T -> int) {
    forall i, j :: 0 <= i < j < |xs| ==> key(xs[i]) >= key(xs[j])
  }

  /** The elements of `xs` whose key is `k`, in their order in `xs`. */
  function WithKey<T>(xs: seq<T>, key: T -> int, k: int): seq<T> {
    if |xs| == 0 then []
    else (if key(xs[0]) == k then [xs[0]] else []) + WithKey(xs[1..], key, k)
  }

  /** Put `x` in front of the first element whose key is not larger. */
  function Insert<T(==)>(x: T, xs: seq<T>, key: T -> int): (r: seq<T>)
    requires SortedDesc(xs, key)
    ensures SortedDesc(r, key)
    ensures multiset(r) == multiset(xs) + multiset{x}
    ensures |r| == |xs| + 1
    ensures forall j :: 0 <= j < |r| ==> key(r[j]) <= key(x) || (|xs| > 0 && key(r[j]) <= key(xs[0]))
  {
    if |xs| == 0 then [x]
    else if key(x) >= key(xs[0]) then
      ConsSorted(x, xs, key);
      [x] + xs
    else
      var rest := Insert(x, xs[1..], key);
      assert multiset(xs) == multiset{xs[0]} + multiset(xs[1..]) by { assert xs == [xs[0]] + xs[1..]; }
      ConsSorted(xs[0], rest, key);
      [xs[0]] + rest
  }

  /** A head with the largest key in front of a sorted tail is sorted. */
  lemma ConsSorted<T>(h: T, rest: seq<T>, key: T -> int)
    requires SortedDesc(rest, key)
    requires forall j :: 0 <= j < |rest| ==> key(rest[j]) <= key(h)
    ensures SortedDesc([h] + rest, key)
  {
    var r := [h] + rest;
    forall i, j | 0 <= i < j < |r| ensures key(r[i]) >= key(r[j]) {
      assert r[j] == rest[j - 1];
      if i > 0 {
        assert r[i] == rest[i - 1];
      }
    }
  }

  function SortDesc<T(==)>(xs: seq<T>, key: T -> int): (r: seq<T>)
    ensures SortedDesc(r, key)
    ensures multiset(r) == multiset(xs)
    ensures |r| == |xs|
  {
    if |xs| == 0 then []
    else
      assert multiset(xs) == multiset{xs[0]} + multiset(xs[1..]) by { assert xs == [xs[0]] + xs[1..]; }
      Insert(xs[0], SortDesc(xs[1..], key), key)
  }

  lemma WithKeyCons<T>(h: T, rest: seq<T>, key: T -> int, k: int)
    ensures WithKey([h] + rest, key, k) == (if key(h) == k then [h] else []) + WithKey(rest, key, k)
  {
    assert ([h] + rest)[1..] == rest;
  }

  /** Inserting `x` adds it to its own key's group in front, and leaves the
      other groups alone. */
  lemma {:induction false} InsertKeepsGroups<T>(x: T, xs: seq<T>, key: T -> int, k: int)
    requires SortedDesc(xs, key)
    ensures WithKey(Insert(x, xs, key), key, k) == (if key(x) == k then [x] else []) + WithKey(xs, key, k)
    decreases |xs|
  {
    if |xs| == 0 {
      WithKeyCons(x, [], key, k);
      assert [x] + [] == [x];
    } else if key(x) >= key(xs[0]) {
      WithKeyCons(x, xs, key, k);
    } else {
      var rest := Insert(x, xs[1..], key);
      var w := WithKey(xs[1..], key, k);
      assert Insert(x, xs, key) == [xs[0]] + rest;
      WithKeyCons(xs[0], rest, key, k);
      WithKeyCons(xs[0], xs[1..], key, k);
      assert [xs[0]] + xs[1..] == xs;
      InsertKeepsGroups(x, xs[1..], key, k);
      if key(x) == k {
        assert key(xs[0]) != k;
        assert WithKey(rest, key, k) == [x] + w;
        assert WithKey(xs, key, k) == w;
      } else {
        assert WithKey(rest, key, k) == w;
      }
    }
  }

  /** Stability: elements with equal keys keep their relative order. */
  lemma {:induction false} SortIsStable<T>(xs: seq<T>, key: T -> int, k: int)
    ensures WithKey(SortDesc(xs, key), key, k) == WithKey(xs, key, k)
    decreases |xs|
  {
    if |xs| > 0 {
      SortIsStable(xs[1..], key, k);
      InsertKeepsGroups(xs[0], SortDesc(xs[1..], key), key, k);
    }
  }
}

=== FILE: store.dfy ===
/** The pipeline's data model: the records it writes, the severity tiers, and
    the whole external state it reads and writes — the key-value lists, the
    forensic table and the protected artifact — as one immutable value. */
module Store {
  import opened Wrappers

  /** One raw attack log entry (`attack:logs`). */
  datatype AttackRecord = AttackRecord(timestamp: int, command: string, ip: string)

  /** One entry of `patch:history`. */
  datatype PatchRecord = PatchRecord(timestamp: int, trigger: string, patch: string)

  /** One entry of `firewall:logs`, naming the rule that blocked the command. */
  datatype FirewallHit = FirewallHit(timestamp: int, command: string, ip: string, rule: string)

  /** A list element as the key-value store holds it: either the JSON text
      of a record the pipeline wrote (JSON encoding is abstracted away, so the
      record itself stands for it), or some other text that does not parse. */
  datatype Entry<T> = Encoded(value: T) | Raw(text: string)

  /** JavaScript truthiness of a list element read back as a string: only the
      empty string is falsy, and an encoded record is never empty. */
  predicate Truthy<T>(e: Entry<T>) {
    e.Encoded? || e.text != []
  }

  datatype Severity = Low | Medium | High | Critical

  /** The tier's position in the precedence order. */
  function Rank(s: Severity): nat {
    match s
    case Low => 0
    case Medium => 1
    case High => 2
    case Critical => 3
  }

  /** A row of the `hacker_activity` table. `engagementMs` is the engagement
      time in milliseconds (the table stores it divided by 1000). */
  datatype ActivityRow = ActivityRow(
    date: string,
    kind: string,
    severity: Severity,
    input: string,
    response: string,
    engagementMs: int,
    evidence: string)

  /** The `type_of_attack` of a row written for a blocked command. */
  const BlockedKind: string := "Blocked / Rule Hit"
  /** The `type_of_attack` of a row written for an allowed command. */
  const TrappedKind: string := "SQL Injection / RCE"

  /** A cached generator response with its expiry in seconds. */
  datatype CacheEntry = CacheEntry(response: string, ttlSeconds: nat)

  /** Every piece of external state the core touches. Lists pushed with
      `lpush` keep their newest element at index 0; the table keeps rows in
      insertion (id) order; `artifact` is the protected source file, `None`
      when it does not exist. */
  datatype State = State(
    attackLogs: seq<Entry<AttackRecord>>,
    firewallRules: seq<string>,
    firewallLogs: seq<FirewallHit>,
    patchHistory: seq<Entry<PatchRecord>>,
    cache: map<string, CacheEntry>,
    activity: seq<ActivityRow>,
    artifact: Option<string>)
}

=== FILE: text.dfy ===
/** String operations of the JavaScript runtime that the pipeline relies on:
    prefix/suffix tests, substring containment (`includes`, an unanchored
    regex alternation of literals), ASCII lower-casing and `trim`. */
module Text {

  predicate StartsWith(s: string, p: string) {
    |p| <= |s| && s[..|p|] == p
  }

  predicate EndsWith(s: string, p: string) {
    |p| <= |s| && s[|s| - |p|..] == p
  }

  /** Substring search: `w` occurs somewhere in `s`. */
  predicate Contains(s: string, w: string) {
    exists k :: 0 <= k <= |s| - |w| && StartsWith(s[k..], w)
  }

  /** An unanchored regex alternation of literal words matches `s`: one of
      the words occurs in it. */
  predicate ContainsAny(s: string, ws: seq<string>) {
    exists i :: 0 <= i < |ws| && Contains(s, ws[i])
  }

  lemma ContainsAt(s: string, w: string, k: nat)
    requires k + |w| <= |s| && s[k..k + |w|] == w
    ensures Contains(s, w)
  {
    assert StartsWith(s[k..], w);
  }

  /** A word of two or more characters cannot occur where its first two
      characters never stand side by side; this settles containment questions
      about literal commands by a finite case split. */
  lemma NoAdjacentPair(s: string, w: string)
    requires |w| >= 2
    requires forall k :: 0 <= k < |s| - 1 ==> !(s[k] == w[0] && s[k + 1] == w[1])
    ensures !Contains(s, w)
  {
    forall k | 0 <= k <= |s| - |w|
      ensures !StartsWith(s[k..], w)
    {
      assert s[k..][0] == s[k] && s[k..][1] == s[k + 1];
    }
  }

  /** A word holding a character that `s` lacks does not occur in `s`. */
  lemma MissingChar(s: string, w: string, c: char)
    requires c in w && c !in s
    ensures !Contains(s, w)
  {
    var i :| 0 <= i < |w| && w[i] == c;
    forall k | 0 <= k <= |s| - |w|
      ensures !StartsWith(s[k..], w)
    {
      assert s[k + i] in s;
      assert s[k..][i] == s[k + i];
    }
  }

  /** Containment survives adding text on either side. */
  lemma {:induction false} ContainsInContext(a: string, s: string, b: string, w: string)
    requires Contains(s, w)
    ensures Contains(a + s + b, w)
  {
    var k :| 0 <= k <= |s| - |w| && StartsWith(s[k..], w);
    var t := a + s + b;
    assert t[|a| + k..|a| + k + |w|] == s[k..k + |w|];
    ContainsAt(t, w, |a| + k);
  }

  function LowerChar(c: char): char {
    if 'A' <= c <= 'Z' then (c as int + 32) as char else c
  }

  /** `toLowerCase`, restricted to ASCII letters. */
  function Lower(s: string): (r: string)
    ensures |r| == |s|
    ensures forall i :: 0 <= i < |s| ==> r[i] == LowerChar(s[i])
  {
    seq(|s|, i requires 0 <= i < |s| => LowerChar(s[i]))
  }

  lemma LowerOfConcat(a: string, b: string)
    ensures Lower(a + b) == Lower(a) + Lower(b)
  {
  }

  /** The characters `String.prototype.trim` removes: ECMAScript WhiteSpace
      and LineTerminator code points. */
  predicate IsJsSpace(c: char) {
    c == ' ' || c == '\t' || c == '\n' || c == '\r' || c == '\U{000B}' || c == '\U{000C}'
    || c == '\U{00A0}' || c == '\U{1680}' || '\U{2000}' <= c <= '\U{200A}'
    || c == '\U{2028}' || c == '\U{2029}' || c == '\U{202F}' || c == '\U{205F}'
    || c == '\U{3000}' || c == '\U{FEFF}'
  }

  predicate AllSpace(s: string) {
    forall i :: 0 <= i < |s| ==> IsJsSpace(s[i])
  }

  /** Drops leading white space: what remains is a suffix of `s` that starts
      with a non-space character, and everything dropped was white space. */
  function TrimStart(s: string): (r: string)
    ensures |r| <= |s| && r == s[|s| - |r|..]
    ensures r == [] || !IsJsSpace(r[0])
    ensures AllSpace(s[..|s| - |r|])
    decreases |s|
  {
    if |s| > 0 && IsJsSpace(s[0]) then
      var r := TrimStart(s[1..]);
      assert s[..|s| - |r|] == [s[0]] + s[1..][..|s| - 1 - |r|];
      r
    else s
  }

  /** Drops trailing white space, mirror image of `TrimStart`. */
  function TrimEnd(s: string): (r: string)
    ensures |r| <= |s| && r == s[..|r|]
    ensures r == [] || !IsJsSpace(r[|r| - 1])
    ensures AllSpace(s[|r|..])
    decreases |s|
  {
    if |s| > 0 && IsJsSpace(s[|s| - 1]) then
      var r := TrimEnd(s[..|s| - 1]);
      assert s[|r|..] == s[..|s| - 1][|r|..] + [s[|s| - 1]];
      r
    else s
  }

  /** `r` is `s` with the white space before offset `lo` and after
      `lo + |r|` removed. */
  predicate TrimmedAt(s: string, r: string, lo: int) {
    0 <= lo <= |s| - |r| && r == s[lo..lo + |r|] && AllSpace(s[..lo]) && AllSpace(s[lo + |r|..])
  }

  /** `trim`: the infix of `s` that neither starts nor ends with white space,
      reached by dropping white space only. */
  function Trim(s: string): (r: string)
    ensures r == [] || (!IsJsSpace(r[0]) && !IsJsSpace(r[|r| - 1]))
    ensures exists lo :: TrimmedAt(s, r, lo)
  {
    var t := TrimStart(s);
    var r := TrimEnd(t);
    TrimmedAtBoth(s, t, r);
    r
  }

  lemma TrimmedAtBoth(s: string, t: string, r: string)
    requires |t| <= |s| && t == s[|s| - |t|..] && AllSpace(s[..|s| - |t|])
    requires |r| <= |t| && r == t[..|r|] && AllSpace(t[|r|..])
    ensures TrimmedAt(s, r, |s| - |t|)
  {
    var lo := |s| - |t|;
    assert s[lo + |r|..] == t[|r|..];
  }

  /** Trimming empties a string exactly when it is all white space. */
  lemma TrimEmptyIffAllSpace(s: string)
    ensures Trim(s) == [] <==> AllSpace(s)
  {
    var r := Trim(s);
    var lo :| TrimmedAt(s, r, lo);
    assert |r| > 0 ==> r[0] == s[lo];
    forall i | 0 <= i < |s| && r == []
      ensures IsJsSpace(s[i])
    {
      if i < lo { assert s[..lo][i] == s[i]; } else { assert s[lo..][i - lo] == s[i]; }
    }
  }

  /** The decimal rendering of a natural number, as template literals print it. */
  function Decimal(n: nat): (r: string)
    ensures |r| >= 1
    ensures AllDigits(r)
    ensures n >= 10 ==> r[0] != '0'
    ensures Canonical(r)
  {
    if n < 10 then [('0' as int + n) as char]
    else Decimal(n / 10) + [('0' as int + n % 10) as char]
  }

  predicate AllDigits(s: string) {
    forall i :: 0 <= i < |s| ==> '0' <= s[i] <= '9'
  }

  /** A numeral without leading zeros: one or more digits, the first not
      '0' unless it is the only one. */
  predicate Canonical(s: string) {
    |s| >= 1 && AllDigits(s) && (|s| == 1 || s[0] != '0')
  }

  /** The number a string of decimal digits denotes. */
  function DigitsValue(s: string): nat
    requires AllDigits(s)
  {
    if |s| == 0 then 0 else DigitsValue(s[..|s| - 1]) * 10 + (s[|s| - 1] as int - '0' as int)
  }

  /** Reading back the digits of `Decimal(n)` gives `n`. */
  lemma {:induction false} DecimalRoundTrip(n: nat)
    ensures DigitsValue(Decimal(n)) == n
  {
    if n >= 10 {
      var r := Decimal(n);
      assert r[..|r| - 1] == Decimal(n / 10);
      DecimalRoundTrip(n / 10);
    }
  }

  /** A numeral without leading zeros is the decimal rendering of its value:
      there is exactly one way to print a number. */
  lemma {:induction false} DecimalUnique(d: string)
    requires Canonical(d)
    ensures d == Decimal(DigitsValue(d))
    decreases |d|
  {
    if |d| > 1 {
      var p := d[..|d| - 1];
      assert Canonical(p) && p[0] == d[0];
      LeadingDigitPositive(p);
      DecimalUnique(p);
      assert d == p + [d[|d| - 1]];
    }
  }

  /** Digits whose first is not '0' denote a positive number. */
  lemma {:induction false} LeadingDigitPositive(d: string)
    requires |d| >= 1 && AllDigits(d) && d[0] != '0'
    ensures DigitsValue(d) > 0
    decreases |d|
  {
    if |d| > 1 {
      var p := d[..|d| - 1];
      assert p[0] == d[0];
      LeadingDigitPositive(p);
    }
  }
}

=== FILE: top_commands.dfy ===
/** The "top commands" bar chart of the admin dashboard: log commands are
    shortened to a display key, counted per key (trapped and blocked apart)
    in a plain object, listed in the object's property order, sorted by total
    count and cut to the first seven. */
module TopCommands {
  import opened Text
  import opened Sorting
  import opened LogsRoute

  const KeyLimit: nat := 15
  const KeyPrefix: nat := 12
  const Ellipsis: string := "..."
  const ChartSize: nat := 7

  /** The chart label of a command: the command itself when it has at most
      15 characters, otherwise its first 12 followed by "...". */
  function CommandKey(command: string): (k: string)
    ensures |k| <= KeyLimit
    ensures k == command <==> |command| <= KeyLimit
    ensures k != command ==> |k| == KeyLimit && k[..KeyPrefix] == command[..KeyPrefix] && EndsWith(k, Ellipsis)
  {
    if |command| > KeyLimit then command[..KeyPrefix] + Ellipsis else command
  }

  /** A label is its own label: shortening is applied once. */
  lemma CommandKeyIdempotent(command: string)
    ensures CommandKey(CommandKey(command)) == CommandKey(command)
  {
  }

  /** Long commands that agree on their first twelve characters share a bar. */
  lemma LongCommandsShareKey(a: string, b: string)
    requires |a| > KeyLimit && |b| > KeyLimit && a[..KeyPrefix] == b[..KeyPrefix]
    ensures CommandKey(a) == CommandKey(b)
  {
  }

  datatype Side = TrappedSide | BlockedSide

  /** One log seen by the aggregation: its label and the list it came from. */
  datatype Sighting = Sighting(key: string, side: Side)

  /** Lines 262-274: the trapped logs are visited first, then the blocked. */
  function Sightings(trapped: seq<LogView>, blocked: seq<LogView>): (s: seq<Sighting>)
    ensures |s| == |trapped| + |blocked|
    ensures forall i :: 0 <= i < |trapped| ==> s[i] == Sighting(CommandKey(trapped[i].command), TrappedSide)
    ensures forall i :: 0 <= i < |blocked| ==> s[|trapped| + i] == Sighting(CommandKey(blocked[i].command), BlockedSide)
  {
    seq(|trapped|, i requires 0 <= i < |trapped| => Sighting(CommandKey(trapped[i].command), TrappedSide))
    + seq(|blocked|, i requires 0 <= i < |blocked| => Sighting(CommandKey(blocked[i].command), BlockedSide))
  }

  /** One bar: `total` is `trapped + blocked`. */
  datatype CommandCount = CommandCount(name: string, trapped: nat, blocked: nat)

  function Total(c: CommandCount): int {
    c.trapped + c.blocked
  }

  /** How many sightings of `name` came from `side`. */
  function Occurrences(s: seq<Sighting>, name: string, side: Side): nat {
    if |s| == 0 then 0
    else Occurrences(s[..|s| - 1], name, side) + (if s[|s| - 1] == Sighting(name, side) then 1 else 0)
  }

  /** The labels of `s` in order of first sighting. */
  function FirstSeen(s: seq<Sighting>): seq<string> {
    if |s| == 0 then []
    else
      var earlier := FirstSeen(s[..|s| - 1]);
      if s[|s| - 1].key in earlier then earlier else earlier + [s[|s| - 1].key]
  }

  function Names(t: seq<CommandCount>): (ns: seq<string>)
    ensures |ns| == |t|
    ensures forall i :: 0 <= i < |t| ==> ns[i] == t[i].name
  {
    seq(|t|, i requires 0 <= i < |t| => t[i].name)
  }

  /** A count with one more sighting on `side`. */
  function Add(c: CommandCount, side: Side): CommandCount {
    if side == TrappedSide then c.(trapped := c.trapped + 1) else c.(blocked := c.blocked + 1)
  }

  /** Counting one sighting: the label's entry is created with zero counts when
      absent, then the count of the sighting's side goes up. An object has
      one property per name, so the entry bumped is the one with that name. */
  function Bump(t: seq<CommandCount>, seen: Sighting): (r: seq<CommandCount>)
    ensures Names(r) == if seen.key in Names(t) then Names(t) else Names(t) + [seen.key]
    ensures forall i :: 0 <= i < |t| ==> r[i] == if t[i].name == seen.key then Add(t[i], seen.side) else t[i]
    ensures seen.key !in Names(t) ==> r[|t|] == Add(CommandCount(seen.key, 0, 0), seen.side)
  {
    if seen.key in Names(t) then
      seq(|t|, i requires 0 <= i < |t| => if t[i].name == seen.key then Add(t[i], seen.side) else t[i])
    else t + [Add(CommandCount(seen.key, 0, 0), seen.side)]
  }

  /** The counts object after visiting `s` (in property-creation order). */
  function Tally(s: seq<Sighting>): seq<CommandCount> {
    if |s| == 0 then [] else Bump(Tally(s[..|s| - 1]), s[|s| - 1])
  }

  predicate DistinctNames(t: seq<CommandCount>) {
    forall i, j :: 0 <= i < j < |t| ==> t[i].name != t[j].name
  }

  /** The counts object is right: one entry per label, in order of first
      sighting, holding how often that label was seen on each side. */
  lemma {:induction false} TallyCounts(s: seq<Sighting>)
    ensures var t := Tally(s);
            && Names(t) == FirstSeen(s)
            && DistinctNames(t)
            && forall i :: 0 <= i < |t| ==>
                 t[i].trapped == Occurrences(s, t[i].name, TrappedSide)
                 && t[i].blocked == Occurrences(s, t[i].name, BlockedSide)
  {
    if |s| > 0 {
      var init := s[..|s| - 1];
      var seen := s[|s| - 1];
      TallyCounts(init);
      var t0 := Tally(init);
      var t := Bump(t0, seen);
      assert Names(t) == FirstSeen(s);
      forall i, j | 0 <= i < j < |t| ensures t[i].name != t[j].name {
        if j < |t0| {
          assert t[i].name == t0[i].name && t[j].name == t0[j].name;
        } else {
          assert t[j].name == seen.key && seen.key !in Names(t0);
          assert t[i].name == Names(t0)[i];
        }
      }
      forall i | 0 <= i < |t|
        ensures t[i].trapped == Occurrences(s, t[i].name, TrappedSide)
        ensures t[i].blocked == Occurrences(s, t[i].name, BlockedSide)
      {
        assert s[..|s| - 1] == init;
        if i >= |t0| {
          assert t[i].name == seen.key && seen.key !in Names(t0);
          OccurrencesOfUnseen(init, seen.key);
        }
      }
    }
  }

  /** A label that was never seen has no occurrences. */
  lemma {:induction false} OccurrencesOfUnseen(s: seq<Sighting>, name: string)
    requires name !in FirstSeen(s)
    ensures Occurrences(s, name, TrappedSide) == 0 && Occurrences(s, name, BlockedSide) == 0
  {
    if |s| > 0 {
      var earlier := FirstSeen(s[..|s| - 1]);
      assert name !in earlier;
      assert s[|s| - 1].key != name;
      OccurrencesOfUnseen(s[..|s| - 1], name);
    }
  }

  /** An integer-like property name (an array index): the decimal form of a
      number below 2^32 - 1 without leading zeros. */
  predicate IsArrayIndex(name: string) {
    && |name| > 0
    && AllDigits(name)
    && (|name| == 1 || name[0] != '0')
    && DigitsValue(name) < 0x1_0000_0000 - 1
  }

  function IndexValue(c: CommandCount): int {
    if IsArrayIndex(c.name) then DigitsValue(c.name) else 0
  }

  function Where(t: seq<CommandCount>, index: bool): (r: seq<CommandCount>)
    ensures multiset(r) <= multiset(t)
    ensures forall i :: 0 <= i < |r| ==> IsArrayIndex(r[i].name) == index
  {
    if |t| == 0 then []
    else
      assert t == [t[0]] + t[1..];
      (if IsArrayIndex(t[0].name) == index then [t[0]] else []) + Where(t[1..], index)
  }

  lemma {:induction false} WhereSplits(t: seq<CommandCount>)
    ensures multiset(Where(t, true)) + multiset(Where(t, false)) == multiset(t)
  {
    if |t| > 0 {
      assert t == [t[0]] + t[1..];
      WhereSplits(t[1..]);
    }
  }

  /** `Object.entries` order: array-index names first, in ascending numeric
      order, then the other names in creation order. */
  function EntriesOrder(t: seq<CommandCount>): (e: seq<CommandCount>)
    ensures multiset(e) == multiset(t)
  {
    WhereSplits(t);
    SortDesc(Where(t, true), c => -IndexValue(c)) + Where(t, false)
  }

  /** The array-index names come first, in ascending numeric order. */
  lemma EntriesOrderPutsIndicesFirst(t: seq<CommandCount>)
    ensures var e := EntriesOrder(t);
            forall i, j :: 0 <= i < j < |e| && IsArrayIndex(e[j].name) ==>
              IsArrayIndex(e[i].name) && DigitsValue(e[i].name) <= DigitsValue(e[j].name)
  {
    var indices := SortDesc(Where(t, true), c => -IndexValue(c));
    forall i | 0 <= i < |indices| ensures IsArrayIndex(indices[i].name) {
      assert indices[i] in multiset(Where(t, true));
    }
    IndicesThenOthers(indices, Where(t, false));
  }

  lemma IndicesThenOthers(indices: seq<CommandCount>, others: seq<CommandCount>)
    requires SortedDesc(indices, c => -IndexValue(c))
    requires forall i :: 0 <= i < |indices| ==> IsArrayIndex(indices[i].name)
    requires forall i :: 0 <= i < |others| ==> !IsArrayIndex(others[i].name)
    ensures var e := indices + others;
            forall i, j :: 0 <= i < j < |e| && IsArrayIndex(e[j].name) ==>
              IsArrayIndex(e[i].name) && DigitsValue(e[i].name) <= DigitsValue(e[j].name)
  {
    var e := indices + others;
    assert forall q :: |indices| <= q < |e| ==> e[q] == others[q - |indices|];
    forall i, j | 0 <= i < j < |e| && IsArrayIndex(e[j].name)
      ensures IsArrayIndex(e[i].name) && DigitsValue(e[i].name) <= DigitsValue(e[j].name)
    {
      assert j < |indices|;
      assert e[i] == indices[i] && e[j] == indices[j];
      assert -IndexValue(indices[i]) >= -IndexValue(indices[j]);
    }
  }

  /** Lines 258-284: the bars of the chart. */
  function TopCommands(trapped: seq<LogView>, blocked: seq<LogView>): (r: seq<CommandCount>)
    ensures |r| <= ChartSize
    ensures SortedDesc(r, Total)
  {
    Cut(Ranked(trapped, blocked))
  }

  /** The sorted entries the chart is cut from. */
  function Ranked(trapped: seq<LogView>, blocked: seq<LogView>): (ranked: seq<CommandCount>)
    ensures SortedDesc(ranked, Total)
    ensures multiset(ranked) == multiset(Tally(Sightings(trapped, blocked)))
  {
    var t := Tally(Sightings(trapped, blocked));
    var e := EntriesOrder(t);
    SortDesc(e, Total)
  }

  /** Line 283: the first seven entries, or all when fewer. */
  function Cut(ranked: seq<CommandCount>): (r: seq<CommandCount>)
    ensures |r| == if |ranked| < ChartSize then |ranked| else ChartSize
    ensures r == ranked[..|r|]
    ensures SortedDesc(ranked, Total) ==> SortedDesc(r, Total)
  {
    if |ranked| <= ChartSize then ranked else ranked[..ChartSize]
  }

  /** The bars are the first seven ranked entries, or all of them. */
  lemma TopIsPrefixOfRanked(trapped: seq<LogView>, blocked: seq<LogView>)
    ensures var ranked := Ranked(trapped, blocked);
            var r := TopCommands(trapped, blocked);
            && |r| == (if |ranked| < ChartSize then |ranked| else ChartSize)
            && r == ranked[..|r|]
            && |ranked| == |Tally(Sightings(trapped, blocked))|
            && multiset(ranked) == multiset(Tally(Sightings(trapped, blocked)))
  {
    var ranked := Ranked(trapped, blocked);
    assert |ranked| == |multiset(ranked)|;
  }

  /** Every bar is a label of the logs with its true trapped and blocked
      counts, and there are seven bars, or one per label when fewer. */
  lemma TopCommandsAreCounted(trapped: seq<LogView>, blocked: seq<LogView>)
    ensures var s := Sightings(trapped, blocked);
            var t := Tally(s);
            var r := TopCommands(trapped, blocked);
            && |r| == (if |t| < ChartSize then |t| else ChartSize)
            && forall i :: 0 <= i < |r| ==>
                 && r[i] in t
                 && r[i].trapped == Occurrences(s, r[i].name, TrappedSide)
                 && r[i].blocked == Occurrences(s, r[i].name, BlockedSide)
  {
    var s := Sightings(trapped, blocked);
    TallyCounts(s);
    TopIsPrefixOfRanked(trapped, blocked);
    var ranked := Ranked(trapped, blocked);
    var r := TopCommands(trapped, blocked);
    forall i | 0 <= i < |r| ensures r[i] in Tally(s) {
      assert r[i] == ranked[i];
      assert ranked[i] in multiset(ranked);
    }
  }

  /** No label left off the chart has a larger total than a bar shown. */
  lemma TopCommandsAreTheLargest(trapped: seq<LogView>, blocked: seq<LogView>)
    ensures var t := Tally(Sightings(trapped, blocked));
            var r := TopCommands(trapped, blocked);
            forall c :: c in t && c !in r ==> forall i :: 0 <= i < |r| ==> Total(c) <= Total(r[i])
  {
    TopIsPrefixOfRanked(trapped, blocked);
    var t := Tally(Sightings(trapped, blocked));
    var ranked := Ranked(trapped, blocked);
    var r := TopCommands(trapped, blocked);
    forall c | c in t && c !in r
      ensures forall i :: 0 <= i < |r| ==> Total(c) <= Total(r[i])
    {
      assert c in multiset(t);
      assert c in multiset(ranked);
      PrefixOfSortedIsLargest(ranked, |r|, c);
    }
  }

  lemma PrefixOfSortedIsLargest(ranked: seq<CommandCount>, n: nat, c: CommandCount)
    requires SortedDesc(ranked, Total) && n <= |ranked| && c in ranked && c !in ranked[..n]
    ensures forall i :: 0 <= i < n ==> Total(c) <= Total(ranked[..n][i])
  {
    var p :| 0 <= p < |ranked| && ranked[p] == c;
    assert forall q :: 0 <= q < n ==> ranked[..n][q] == ranked[q];
    assert p >= n;
  }

  /** Bars with equal totals appear in `Object.entries` order (the sort is
      stable), shown here for a chart that holds every label. */
  lemma TopCommandsTiesKeepEntriesOrder(trapped: seq<LogView>, blocked: seq<LogView>, k: int)
    requires |Tally(Sightings(trapped, blocked))| <= ChartSize
    ensures WithKey(TopCommands(trapped, blocked), Total, k)
            == WithKey(EntriesOrder(Tally(Sightings(trapped, blocked))), Total, k)
  {
    TopIsPrefixOfRanked(trapped, blocked);
    SortIsStable(EntriesOrder(Tally(Sightings(trapped, blocked))), Total, k);
  }
}

=== FILE: triage.dfy ===
/** The severity classifier of the honeypot route: three unanchored keyword
    regexes over the lower-cased command, tried in precedence order. */
module Triage {
  import opened Text
  import opened Store

  const CriticalWords: seq<string> := ["drop", "delete", "update", "shutdown", "truncate"]
  const HighWords: seq<string> := ["union", "select", "curl", "wget", "from_schema"]
  const MediumWords: seq<string> := ["ls", "cat", "whoami", "<script>", "alert"]

  /** The tier a command is filed under. */
  function Classify(command: string): (sev: Severity)
    ensures sev == Critical <==> ContainsAny(Lower(command), CriticalWords)
    ensures sev == High <==> !ContainsAny(Lower(command), CriticalWords)
                             && ContainsAny(Lower(command), HighWords)
    ensures sev == Medium <==> !ContainsAny(Lower(command), CriticalWords)
                               && !ContainsAny(Lower(command), HighWords)
                               && ContainsAny(Lower(command), MediumWords)
    ensures sev == Low <==> !ContainsAny(Lower(command), CriticalWords)
                            && !ContainsAny(Lower(command), HighWords)
                            && !ContainsAny(Lower(command), MediumWords)
  {
    var lower := Lower(command);
    if ContainsAny(lower, CriticalWords) then Critical
    else if ContainsAny(lower, HighWords) then High
    else if ContainsAny(lower, MediumWords) then Medium
    else Low
  }

  /** Letter case never changes the tier. */
  lemma ClassifyIgnoresCase(command: string)
    ensures Classify(Lower(command)) == Classify(command)
  {
    assert Lower(Lower(command)) == Lower(command);
  }

  /** Adding text around a command can only raise its tier: every keyword of
      the original is still present. */
  lemma {:induction false} ClassifyMonotone(a: string, command: string, b: string)
    ensures Rank(Classify(command)) <= Rank(Classify(a + command + b))
  {
    var lower := Lower(command);
    var lower' := Lower(a + command + b);
    LowerOfConcat(a + command, b);
    LowerOfConcat(a, command);
    assert lower' == Lower(a) + lower + Lower(b);
    forall ws: seq<string> | ContainsAny(lower, ws) ensures ContainsAny(lower', ws) {
      var i :| 0 <= i < |ws| && Contains(lower, ws[i]);
      ContainsInContext(Lower(a), lower, Lower(b), ws[i]);
    }
  }

  /** Worked examples: a destructive command is
      Critical, an exfiltration command High, a script tag Medium, and a
      greeting Low. */
  lemma ClassifyCriticalExample()
    ensures Classify("DROP TABLE users") == Critical
  {
    var lower := "drop table users";
    assert Lower("DROP TABLE users") == lower;
    ContainsAt(lower, "drop", 0);
    assert CriticalWords[0] == "drop";
  }

  lemma ClassifyHighExample()
    ensures Classify("UNION SELECT * FROM users") == High
  {
    UnionSelectLowered();
    UnionSelectIsHigh();
    NoCriticalWord("union select * from users");
  }

  lemma UnionSelectLowered()
    ensures Lower("UNION SELECT * FROM users") == "union select * from users"
  {
  }

  lemma UnionSelectIsHigh()
    ensures ContainsAny("union select * from users", HighWords)
  {
    var s := "union select * from users";
    assert s[..5] == "union";
    ContainsAt(s, "union", 0);
    assert HighWords[0] == "union";
  }

  lemma ClassifyMediumExample()
    ensures Classify("<script>alert(1)</script>") == Medium
  {
    ScriptTagLowered();
    ScriptTagIsMedium();
    NoCriticalWord("<script>alert(1)</script>");
    ScriptTagNotHigh();
  }

  lemma ScriptTagLowered()
    ensures Lower("<script>alert(1)</script>") == "<script>alert(1)</script>"
  {
  }

  lemma ScriptTagIsMedium()
    ensures ContainsAny("<script>alert(1)</script>", MediumWords)
  {
    ContainsAt("<script>alert(1)</script>", "<script>", 0);
    assert MediumWords[3] == "<script>";
  }

  lemma ScriptTagNotHigh()
    ensures !ContainsAny("<script>alert(1)</script>", HighWords)
  {
    ScriptTagHasNoSelect();
    NoHighWord("<script>alert(1)</script>");
  }

  lemma ScriptTagHasNoSelect()
    ensures !Contains("<script>alert(1)</script>", "select")
  {
    NoAdjacentPair("<script>alert(1)</script>", "select");
  }

  lemma ClassifyLowExample()
    ensures Classify("hello") == Low
  {
    var lower := "hello";
    assert Lower(lower) == lower;
    NoCriticalWord(lower);
    MissingChar(lower, "select", 's');
    NoHighWord(lower);
    NoMediumWord(lower);
  }

  /** Matching is by substring, so "false" is Medium through "ls". */
  lemma ClassifySubstringQuirk()
    ensures Classify("false") == Medium
  {
    var lower := "false";
    assert Lower(lower) == lower;
    ContainsAt(lower, "ls", 2);
    assert MediumWords[0] == "ls";
    NoCriticalWord(lower);
    MissingChar(lower, "select", 't');
    NoHighWord(lower);
  }

  /* The refutations below settle `!ContainsAny(s, words)` for a literal `s`
     one word at a time, each from a character of the word that `s` lacks. */

  lemma NoCriticalWord(s: string)
    requires 'd' !in s
    requires 'u' !in s || 'a' !in s
    ensures !ContainsAny(s, CriticalWords)
  {
    MissingChar(s, "drop", 'd');
    MissingChar(s, "delete", 'd');
    MissingChar(s, "update", 'd');
    MissingChar(s, "shutdown", 'd');
    if 'u' !in s {
      MissingChar(s, "truncate", 'u');
    } else {
      MissingChar(s, "truncate", 'a');
    }
  }

  lemma NoHighWord(s: string)
    requires 'u' !in s && 'w' !in s && 'm' !in s
    requires !Contains(s, "select")
    ensures !ContainsAny(s, HighWords)
  {
    MissingChar(s, "union", 'u');
    MissingChar(s, "curl", 'u');
    MissingChar(s, "wget", 'w');
    MissingChar(s, "from_schema", 'm');
  }

  lemma NoMediumWord(s: string)
    requires 's' !in s && 'c' !in s && 'w' !in s && 'a' !in s
    ensures !ContainsAny(s, MediumWords)
  {
    MissingChar(s, "ls", 's');
    MissingChar(s, "cat", 'c');
    MissingChar(s, "whoami", 'w');
    MissingChar(s, "<script>", 's');
    MissingChar(s, "alert", 'a');
  }
}

=== FILE: velocity.dfy ===
/** The attack-velocity chart of the admin dashboard (`getVelocityData`):
    the last five minutes split into thirty ten-second buckets, oldest first,
    each counting the trapped and the blocked log entries whose age falls in
    it. Clock formatting of the bucket labels is left out; a bucket carries
    the time it stands for in milliseconds. */
module Velocity {
  import opened LogsRoute

  const BucketMs: nat := 10000
  const BucketCount: nat := 30

  datatype Bucket = Bucket(time: int, trapped: nat, blocked: nat)

  /** The bucket an age falls in, counted back from the last bucket by whole
      ten-second steps; with a positive divisor, division on `int` rounds
      toward minus infinity, as the source's floor does. */
  function BucketIndex(age: int): int {
    (BucketCount - 1) - age / BucketMs
  }

  /** Reference description of bucket `i`: the ages it covers. */
  predicate InBucket(age: int, i: int) {
    (BucketCount - 1 - i) * BucketMs <= age < (BucketCount - i) * BucketMs
  }

  /** A log is counted in bucket `i` exactly when its age lies in that
      bucket's ten seconds. */
  lemma BucketIndexIff(age: int, i: int)
    ensures BucketIndex(age) == i <==> InBucket(age, i)
  {
    var q := age / BucketMs;
    assert age == q * BucketMs + age % BucketMs;
  }

  /** Line 134's guard: an index outside the chart is dropped; otherwise
      that counter goes up by one. */
  function Place(counts: seq<nat>, idx: int): (r: seq<nat>)
    ensures |r| == |counts|
    ensures forall j :: 0 <= j < |counts| ==> r[j] == counts[j] + (if j == idx then 1 else 0)
  {
    if 0 <= idx < |counts| then counts[idx := counts[idx] + 1] else counts
  }

  /** The counters after visiting every log in order, taken at time `now`. */
  function Counts(logs: seq<LogView>, now: int): (c: seq<nat>)
    ensures |c| == BucketCount
  {
    if |logs| == 0 then seq(BucketCount, _ => 0)
    else Place(Counts(logs[..|logs| - 1], now), BucketIndex(now - logs[|logs| - 1].timestamp))
  }

  /** Reference count: the logs whose age falls in bucket `i`. */
  function InWindow(logs: seq<LogView>, now: int, i: int): nat {
    if |logs| == 0 then 0
    else InWindow(logs[..|logs| - 1], now, i) + (if InBucket(now - logs[|logs| - 1].timestamp, i) then 1 else 0)
  }

  /** Lines 131-141: each counter holds exactly the logs of its window. */
  lemma {:induction false} CountsAreWindows(logs: seq<LogView>, now: int, i: nat)
    requires i < BucketCount
    ensures Counts(logs, now)[i] == InWindow(logs, now, i)
  {
    if |logs| > 0 {
      CountsAreWindows(logs[..|logs| - 1], now, i);
      BucketIndexIff(now - logs[|logs| - 1].timestamp, i);
    }
  }

  function Sum(c: seq<nat>): nat {
    if |c| == 0 then 0 else Sum(c[..|c| - 1]) + c[|c| - 1]
  }

  /** The logs no older than the chart and not from the future. */
  function Recent(logs: seq<LogView>, now: int): (n: nat)
    ensures n <= |logs|
  {
    if |logs| == 0 then 0
    else
      var age := now - logs[|logs| - 1].timestamp;
      Recent(logs[..|logs| - 1], now) + (if 0 <= age < BucketCount * BucketMs then 1 else 0)
  }

  lemma {:induction false} SumOfPlace(c: seq<nat>, idx: int)
    ensures Sum(Place(c, idx)) == Sum(c) + (if 0 <= idx < |c| then 1 else 0)
  {
    if |c| > 0 {
      var r := Place(c, idx);
      assert r[..|r| - 1] == Place(c[..|c| - 1], idx);
      SumOfPlace(c[..|c| - 1], idx);
    }
  }

  lemma {:induction false} SumOfZeros(n: nat)
    ensures Sum(seq(n, _ => 0)) == 0
  {
    if n > 0 {
      assert seq(n, _ => 0)[..n - 1] == seq(n - 1, _ => 0);
      SumOfZeros(n - 1);
    }
  }

  /** Each log moves at most one counter: the counters add up to the number
      of recent logs, never to more than there are logs. */
  lemma {:induction false} CountsSumToRecent(logs: seq<LogView>, now: int)
    ensures Sum(Counts(logs, now)) == Recent(logs, now)
    ensures Sum(Counts(logs, now)) <= |logs|
  {
    if |logs| == 0 {
      SumOfZeros(BucketCount);
    } else {
      var age := now - logs[|logs| - 1].timestamp;
      CountsSumToRecent(logs[..|logs| - 1], now);
      SumOfPlace(Counts(logs[..|logs| - 1], now), BucketIndex(age));
      var q := age / BucketMs;
      assert age == q * BucketMs + age % BucketMs;
      assert 0 <= BucketIndex(age) < BucketCount <==> 0 <= age < BucketCount * BucketMs;
    }
  }

  /** The chart, lines 117-144. */
  function VelocityData(now: int, trapped: seq<LogView>, blocked: seq<LogView>): (b: seq<Bucket>)
    ensures |b| == BucketCount
    ensures b[BucketCount - 1].time == now
    ensures forall i :: 0 < i < |b| ==> b[i].time == b[i - 1].time + BucketMs
  {
    var t := Counts(trapped, now);
    var k := Counts(blocked, now);
    seq(BucketCount, i requires 0 <= i < BucketCount => Bucket(now - (BucketCount - 1 - i) * BucketMs, t[i], k[i]))
  }

  /** What each bucket shows: the trapped and blocked logs of its window,
      and in total no more of either than there are. */
  lemma VelocityCounts(now: int, trapped: seq<LogView>, blocked: seq<LogView>)
    ensures var b := VelocityData(now, trapped, blocked);
            && (forall i :: 0 <= i < BucketCount ==>
                  b[i].trapped == InWindow(trapped, now, i) && b[i].blocked == InWindow(blocked, now, i))
            && Sum(Counts(trapped, now)) <= |trapped| && Sum(Counts(blocked, now)) <= |blocked|
  {
    forall i | 0 <= i < BucketCount
      ensures Counts(trapped, now)[i] == InWindow(trapped, now, i) && Counts(blocked, now)[i] == InWindow(blocked, now, i)
    {
      CountsAreWindows(trapped, now, i);
      CountsAreWindows(blocked, now, i);
    }
    CountsSumToRecent(trapped, now);
    CountsSumToRecent(blocked, now);
  }
}

=== FILE: wrappers.dfy ===
/** Failure-compatible wrappers used across the model: an optional value and
    the result of a call into a collaborator that may throw. */
module Wrappers {

  datatype Option<+T> = None | Some(value: T) {

    /** The value, or `default` when there is none. */
    function GetOr(default: T): T {
      match this
      case Some(v) => v
      case None => default
    }
  }

  /** `Failure` carries the message of the exception the collaborator threw. */
  datatype Result<+R> = Success(value: R) | Failure(message: string)
}
